=== FILE: README.md ===
# ColResize drag-to-resize, modelled in Dafny

ColResize is a jQuery DataTables plugin that lets the user resize a column by
dragging the right edge of its header cell. This project models the plugin's
logic as pure functions over integers and immutable records:

- the option merge `settingsFallback` over JavaScript values, and the defaults;
- the instance's drag state and the lifecycle operations: construction,
  `fnEnable`, `fnDisable` and `fnReset`;
- the three pointer handlers: pointer-down on a header cell, and pointer-move
  and pointer-up on the document;
- the helpers: the drag band (`_fnIsInDragArea`), the reading of CSS widths
  (`_fnGetWidthOfValue`), the bound check (`_fnBoundCheck`), the width written
  by `_fnApplyWidth` / `_fnApplyWidthColumn` and its table-shrink decision,
  `_fnIsLastResizableColumnDragging`, and the default `isResizable` option.

DOM measurements become fields of the events: the cell's left offset, outer
width and computed `min-width` / `max-width` strings, the pointer x, and the
table and scroll-wrapper widths. Effects on the page become a list of
`Effect` values per step: user callbacks, bound-class flashes, table resizes,
body-width pinning, scrolling and log warnings. Pixel values are unbounded
`int`. A NaN from `parseInt` is `None`.

The source's two timers are handled differently. The 100 ms sortability
restore that pointer-up schedules is an explicit `SortRestoreTimer` event.
A counter of pending restores records how many are scheduled. The 500 ms
bound-class removal only affects styling and is not modelled.

Modules, in dependency order:

| file | module | contents |
|---|---|---|
| wrappers.dfy | `Wrappers` | `Option`, `Result` |
| css.dfy | `Css` | printing `n + 'px'`, reading a computed width |
| bounds.dfy | `Bounds` | bound check, latches, clamp reference, frames of a drag |
| layout.dfy | `Layout` | drag band, table shrink decision |
| settings.dfy | `Settings` | JavaScript values, `settingsFallback`, defaults |
| columns.dfy | `Columns` | column record, default `isResizable`, last resizable column |
| colresize.dfy | `ColResize` | drag state, session, events, handlers, `Step`, `Run` |
| properties.dfy | `DragProperties` | properties over event sequences |

Notes on what the code does:

- `jquery.dataTables.colResize.js` has no persistence of widths, no
  save/restore of widths, no `getMinWidthOf` and no conversion of percentage
  widths. None of these is modelled.
- `fnEnable`, `fnDisable` and `fnReset` are modelled, because they decide
  which handlers run.
- `fnReset` copies `_sResizableWidth` into every column. A column that was
  never resizable never had it saved, so its widths become undefined. The
  host's columns never carry `_sResizableWidth` before the first
  construction, so for columns given to `ColResize.Init` with
  `resizableWidth == Absent`, as the host's are, `Absent` is written.
- `_sResizableWidth` is written by `_fnConstruct`, which `fnEnable` runs
  again after `fnDisable`. So disable, enable, reset goes back to the widths
  at re-enable time, not to the widths the page was served with
  (`DragProperties.ReenableResavesWidths`).
- `_fnApplyWidth` measures the table again after resizing it, and only then
  decides whether to pin the body widths. The comment at line 274 speaks of a
  table that "has not shrunk", but one frame can both shrink the table and
  pin the body widths (`Layout.ShrinkAndPin`). The model keeps the code's
  order. It takes the re-measured width to be the width just set (see
  `Layout.PinsBodyWidths` under "Left out").
- The model is one plugin instance on one table.

Two places where the code does something other than what it evidently means
are listed under "## Findings". Each is modelled both ways. The session runs
under either `Policy`. `AsWritten` is the code: pointer-down reads the bounds
with `_fnGetWidthOfValue`, and the sortability bookkeeping is the source's.
`Guarded` is the corrected program: the bounds are read with the decimal
pattern (`Css.ParseWidth`), and the sortability flags are guarded.

## Model

| member | source | states |
|---|---|---|
| Css.Numeral | jquery.dataTables.colResize.js:287-288 | The printed width `n` is a non-empty digit string with no leading zero whose decimal value is `n`. |
| Css.PxText | jquery.dataTables.colResize.js:287-288 | `width + 'px'`: the string ends in `px`. Before it stand the digits of the width, preceded by `-` for a negative width, as `"-5px"` is written. |
| Css.FirstMatch | jquery.dataTables.colResize.js:294 | Regular-expression search: the result is the leftmost position where the pattern matches. `None` means no position matches. |
| Css.GetWidthOfValue | jquery.dataTables.colResize.js:290-295 | `"none"` reads as -1. Otherwise the read fails (NaN) exactly when no position matches `(\d)+px`. On a match it is the decimal value of the digits of the leftmost match, so it is non-negative. |
| Css.ReadsLeadingNumeral | jquery.dataTables.colResize.js:294 | A string that starts with digits followed by `px` reads as the value of those digits, whatever follows. This holds under both patterns. |
| Css.PxTextRoundTrip | jquery.dataTables.colResize.js:286-295 | Reading back the `sWidth` that `_fnApplyWidthColumn` writes for a width n ≥ 0 gives n, both as written and corrected. |
| Css.FractionalMisread | jquery.dataTables.colResize.js:294 | As written, `"112.5px"` reads as 5. The corrected reading gives 112. |
| Css.ParseWidth | jquery.dataTables.colResize.js:290-295 | Corrected reading: `"none"` is -1. The read fails exactly when no position matches `\d+(\.\d+)?px`. On a match it is the value of the leading digits of the leftmost match. |
| Css.ReadersAgreeWithoutFraction | jquery.dataTables.colResize.js:290-295 | For every string: if there is no decimal match, or the leftmost decimal match is digits directly followed by `px`, the source's reading equals the corrected one. |
| Css.ReadersDifferOnlyOnFractions | jquery.dataTables.colResize.js:290-295 | For every string other than `"none"` on which the two readings differ, the leftmost decimal match exists and has a fractional part. |
| Css.DottedMisread | jquery.dataTables.colResize.js:294 | `"1.2.3px"` reads as 3 as written and as 2 corrected, so the readings also differ on strings that are not a single fractional number. |
| Css.FractionalRead | jquery.dataTables.colResize.js:294 | Corrected reading: `"<n>.<f>px"` reads as n for every n and f. |
| Bounds.BoundCheck | jquery.dataTables.colResize.js:296-329 | If the wish width is inside the active bounds, the change is unchanged. With ordered bounds, the resulting width is inside them: a width below min becomes min, one above max becomes max. A class is added only while its latch is open. Each latch is closed exactly when its bound is violated. |
| Bounds.Clamp | jquery.dataTables.colResize.js:301-327 | Reference clamp: the result is within the active bounds. A width already within them is kept. One below min becomes min, one above max becomes max. A bound of -1 or NaN does not constrain. |
| Bounds.Corrected | jquery.dataTables.colResize.js:253 | Without bound checking the change is the pointer's travel. With it, and with ordered bounds, the width captured at pointer-down plus the change is the wish width clamped by `Bounds.Clamp`. |
| Bounds.DeltaIgnoresLatches | jquery.dataTables.colResize.js:302-327 | The latches affect only which classes are added, never the corrected change. |
| Bounds.LatchFiresOncePerRun | jquery.dataTables.colResize.js:302-327 | Over the frames of a drag, frame k adds the min-bound class iff it is below min and either it is the first frame with the latch open or frame k-1 was not below min. The same holds for max. |
| Bounds.FramesApplyClampedDelta | jquery.dataTables.colResize.js:296-329 | Every frame of a drag applies the same change it would apply with freshly armed latches. |
| Layout.IsInDragArea | jquery.dataTables.colResize.js:242-246 | The pointer is in the drag band iff it is strictly less than 10 px from the cell's right edge (left offset + outer width). |
| Layout.ShouldChangeTableWidth | jquery.dataTables.colResize.js:261-263 | The table is resized only for a shrink inside a scroll wrapper. The shrunk table, one pixel narrower still, is narrower than before and no narrower than the wrapper. |
| Layout.TableWidthAfter | jquery.dataTables.colResize.js:259-266 | The table never grows. It shrinks exactly when the column shrinks inside a scroll wrapper and the table stays wider than the wrapper. It then loses the shrink plus one pixel and is never narrower than the wrapper. |
| Layout.PinsBodyWidths | jquery.dataTables.colResize.js:259-284 | Body widths are pinned iff the column shrank inside a scroll wrapper and the table is too narrow for the wrapper. The table is measured after its own resize, which is taken to be the width just set. So a frame that shrank the table has the shrink counted twice. |
| Layout.PinsWhenTableCannotShrink | jquery.dataTables.colResize.js:259-284 | When the shrunk table would be narrower than the wrapper, the table keeps its width and the body widths are pinned. |
| Layout.ShrinkAndPin | jquery.dataTables.colResize.js:259-284 | A 60 px shrink takes a 1000 px table in a 900 px wrapper to 939 px and also pins the body widths. |
| Columns.DefaultIsResizable | jquery.dataTables.colResize.js:369-374 | An undefined column option means resizable. Any other value is returned and tested for truthiness, so false, null, 0 and "" all make the column non-resizable. |
| Columns.VisibleFrom | jquery.dataTables.colResize.js:335 | The filtered list holds exactly the positions of the visible columns, in increasing order. |
| Columns.IndexOf | jquery.dataTables.colResize.js:336 | The first index holding the column, or -1 exactly when it is absent. |
| Columns.VisibleAfterDragged | jquery.dataTables.colResize.js:336-345 | The entries after the dragged column in the filtered list are exactly the visible columns after it. If the dragged column is not in the list, they are all visible columns. |
| Columns.NoneResizableFrom | jquery.dataTables.colResize.js:340-346 | The scan from a position of the filtered list returns true iff no column from there on is resizable. |
| Columns.IsLastResizableColumnDragging | jquery.dataTables.colResize.js:334-347 | True iff no visible column after the dragged one is resizable. So it is true when the dragged column is the last visible one. For a hidden dragged column, true iff no visible column is resizable. |
| Settings.Fallback | jquery.dataTables.colResize.js:38-56 | The result has exactly the defaults' own keys. A key missing from the user gets the default. A non-object user value, including a function, replaces the default. An object or null user value is merged recursively. A null or undefined user value throws iff the defaults have keys. |
| Settings.EmptyUserGetsDefaults | jquery.dataTables.colResize.js:38-56 | Merging an empty user object over object defaults gives the defaults. |
| Settings.NullFreeNeverThrows | jquery.dataTables.colResize.js:44-47 | A user object without null anywhere never makes the merge throw. |
| Settings.FallbackIdempotent | jquery.dataTables.colResize.js:38-56 | Merging a null-free object over itself gives it back unchanged. |
| Settings.NullOverKeyedDefaultThrows | jquery.dataTables.colResize.js:44-47 | A null user option whose default has own keys (a non-empty string or an object) makes the merge throw, because `typeof null` is 'object'. |
| Settings.ResolveOptions | jquery.dataTables.colResize.js:68 | The resolved options have exactly the keys of `ColResize.defaults`. Falsy user options resolve to the defaults themselves. |
| Settings.DefaultsTurnEverythingOn | jquery.dataTables.colResize.js:363-378 | `ColResize.defaults` (`Settings.Defaults`) is an object with no null in it. Its `isEnabled` and `hasBoundCheck` are truthy. Without user options the resolved options are exactly the defaults. |
| ColResize.Construct | jquery.dataTables.colResize.js:184-234 | The instance becomes enabled. Each column gets the drag handler iff it is resizable. A resizable column has its current `sWidth` saved as `_sResizableWidth`. Nothing else changes. |
| ColResize.Init | jquery.dataTables.colResize.js:67-106 | The merge fails iff the options merge throws. An existing instance is returned as is. A new instance starts idle with no pending restore. Its `enabled` and `hasBoundCheck` are the truthiness of the merged `isEnabled` and `hasBoundCheck`. It is constructed iff it is enabled, and otherwise keeps the columns as given. |
| ColResize.EnableStep | jquery.dataTables.colResize.js:109-115 | A first enable is exactly construction, with no effect. A repeated enable changes nothing and only logs a warning. |
| ColResize.DisableStep | jquery.dataTables.colResize.js:123-136 | Disabling leaves the instance disabled. Every column loses its drag handler and nothing else. The drag state, pending restores and options are kept. A repeated disable only logs a warning. |
| ColResize.ResetStep | jquery.dataTables.colResize.js:116-122 | Every column's `width` and `sWidth` become its saved `_sResizableWidth`. Nothing else changes, and `onResizeEnd(null, …)` is reported. |
| ColResize.SuspendSorting | jquery.dataTables.colResize.js:223-227 | Every column becomes unsortable. Its previous flag is saved when saving is asked for. |
| ColResize.RestoreSorting | jquery.dataTables.colResize.js:166-171 | Every column's sortability becomes its saved flag. A flag never saved reads as false. |
| ColResize.PointerDownStep | jquery.dataTables.colResize.js:209-230 | Outside the band, or on a column without the handler, nothing changes. Inside it, a drag starts on that column. The drag captures the pointer x, the outer width and the bounds read under the policy, and re-arms both latches. It records whether the column is the last resizable one on screen, as `IsLastResizable` decides. Every column becomes unsortable. As written every flag is saved. Under `Guarded` flags are saved only when no drag is active and no restore is pending. |
| ColResize.ReadBound | jquery.dataTables.colResize.js:215-216 | As written, a bound is read with `_fnGetWidthOfValue`. Under `Guarded` it is read with the decimal pattern. |
| ColResize.ApplyWidth | jquery.dataTables.colResize.js:250-289 | Only the dragged column's `sWidth` and the latches change, and the latches change only with bound checking on. The new `sWidth` is the px string of the width captured at pointer-down plus the bound-checked change. Bound classes are flashed exactly as the bound check's latches say. The table is resized exactly as `Layout.TableWidthAfter` decides for that change. The body widths are pinned exactly as `Layout.PinsBodyWidths` decides. The frame has no other effect, and no effect twice. |
| ColResize.FrameEffects | jquery.dataTables.colResize.js:259-284 | A frame adds a bound class iff the bound check says so. It sets the table width iff the table shrinks, and then to `Layout.TableWidthAfter`. It pins the body widths iff `Layout.PinsBodyWidths` holds. It emits nothing else, and nothing twice. |
| ColResize.PointerMoveStep | jquery.dataTables.colResize.js:147-162 | With no active drag nothing changes. Otherwise the step applies the width computed from the pointer-down position. Its effects are exactly those of `ApplyWidth`: flashes, table resize and pinning. They are followed by the `onResize` report and, for the last resizable column in a scrolling table, the scroll to the end. |
| ColResize.PointerUpStep | jquery.dataTables.colResize.js:163-180 | While enabled, pointer-up always ends the drag. It never touches the columns. After an active drag it schedules one sortability restore and reports `onResizeEnd` for the dragged column. Only `isDragging` and the pending-restore count change. When disabled, nothing changes, because the handler was removed. |
| ColResize.SortRestoreStep | jquery.dataTables.colResize.js:166-171 | A pending restore runs once. It puts every saved flag back and changes nothing else. Under `Guarded`, while a drag is active, it leaves the columns untouched. With nothing pending, nothing changes. |
| DragProperties.MoveStep | jquery.dataTables.colResize.js:147-150 | One pointer-move during a drag sets the dragged column's width from the pointer-down values and the current x. It only updates the latches. |
| DragProperties.MovesKeepDrag | jquery.dataTables.colResize.js:147-150 | During a drag, any pointer-moves change nothing but the dragged column's `sWidth` and the latches. |
| DragProperties.MovesDoNotDrift | jquery.dataTables.colResize.js:149-150 | After any non-empty run of pointer-moves, the dragged column's width depends only on the last pointer x and the values captured at pointer-down. |
| DragProperties.DownCaptures | jquery.dataTables.colResize.js:211-220 | Pointer-down in the band starts a drag on that column. The drag captures the pointer x, the cell's outer width and its min/max as the policy reads them. It keeps the bound-check setting and the number of columns. |
| DragProperties.AppliedIsClamped | jquery.dataTables.colResize.js:296-329 | With bound checking on and ordered bounds, the applied width is the wish width clamped to the bounds. With it off, it is the wish width. |
| DragProperties.DragWidthIsClamped | jquery.dataTables.colResize.js:209-216 | Under either policy, pointer-down at x0 then moves ending at x leave the column at the cell's width plus (x − x0). With bound checking on and ordered bounds, this width is clamped to the bounds as the policy reads them. With bound checking off it is not clamped. |
| DragProperties.WholePixelDragIsClamped | jquery.dataTables.colResize.js:209-216 | With a whole-pixel minimum (`n + 'px'`) and a whole-pixel or `"none"` maximum, the program as written and the corrected one both clamp the dragged width to those bounds. |
| DragProperties.FractionalMinInSession | jquery.dataTables.colResize.js:215 | A 120 px cell with `min-width: 112.5px`, dragged 10 px narrower with bound checking on: the program as written writes 110px, and the corrected one writes 112px. |
| DragProperties.FractionalBoundsRead | jquery.dataTables.colResize.js:290-295 | `Css.FractionalMisread` seen through each policy's reader (`"none"` is -1 under both), and where `Bounds.Clamp` then puts a 110 px wish: at 110 as written, at 112 corrected. |
| DragProperties.MovesFlashAsFrames | jquery.dataTables.colResize.js:302-327 | The k-th pointer-move of a drag adds a bound class exactly when the k-th frame of the bound check does. |
| DragProperties.BoundClassOncePerRun | jquery.dataTables.colResize.js:217-218 | From pointer-down on, a move adds the min-bound class iff it is below min and the move before it (if any) was not. The same holds for max. So each class is added once per run of out-of-bounds moves. |
| DragProperties.StepKeepsWellFormed | jquery.dataTables.colResize.js:212-220 | Every step keeps an active drag attached to a column of the table and keeps the number of columns. |
| DragProperties.RunKeepsWellFormed | jquery.dataTables.colResize.js:212-220 | The same holds over any sequence of events. |
| DragProperties.PointerEventsKeepBaseline | jquery.dataTables.colResize.js:190-191 | Pointer and timer events never change any column's saved `_sResizableWidth`. |
| DragProperties.ResetUndoesDrags | jquery.dataTables.colResize.js:116-122 | Take construction, any pointer and timer events, then reset. Every resizable column is back at its width at construction, and every other column gets its old saved width. |
| DragProperties.ReenableResavesWidths | jquery.dataTables.colResize.js:109-136 | Disable, enable, reset leaves every resizable column at its width at re-enable time, which is also its new saved width. |
| DragProperties.DefaultOptionDecidesHandles | jquery.dataTables.colResize.js:186-191 | Under the default option, construction gives the drag handle exactly to columns whose own `isResizable` is undefined or truthy. The others keep their saved width. |
| DragProperties.DownSavesSortables | jquery.dataTables.colResize.js:223-227 | Pointer-down in the band of a settled instance starts a drag with every column's sortability saved in its holder. |
| DragProperties.UpThenRestore | jquery.dataTables.colResize.js:163-171 | Pointer-up after a drag, then the scheduled restore, settle the instance with every saved flag back on its column. |
| DragProperties.SingleDragRestoresSortability | jquery.dataTables.colResize.js:163-180 | Under either policy, one drag (down in the band, moves, up, restore) from a settled instance leaves every column's sortability as it was. |
| DragProperties.GuardedStepKeepsSortInvariant | jquery.dataTables.colResize.js:209-229 | Under `Guarded` every step keeps the original flags safe. They are on the columns while settled and in the holders otherwise. |
| DragProperties.GuardedRunKeepsSortInvariant | jquery.dataTables.colResize.js:163-180 | The same holds over any sequence of events. |
| DragProperties.GuardedDragsKeepSortability | jquery.dataTables.colResize.js:163-180 | Under `Guarded`, take any interleaving of drags, restores and API calls. Once the instance settles, every column is exactly as sortable as before. |
| DragProperties.QuickRedragLosesSortability | jquery.dataTables.colResize.js:223-227 | As written, a second drag started before the first restore runs leaves a sortable column unsortable once everything settles. Under `Guarded` it is sortable again. |

## Findings

| source | as written | input that shows it | evidently intended | confidence | as-written member | corrected member |
|---|---|---|---|---|---|---|
| jquery.dataTables.colResize.js:294 | The bound is read from the leftmost match of `(\d)+px`. For a fractional width that match is the fractional digits. | computed `min-width` of `"112.5px"` (for example from `7.5em`) reads as 5 | the whole-pixel part, 112 | not executed; high (follows from the regular expression) | DragProperties.FractionalMinInSession | Css.FractionalRead |
| jquery.dataTables.colResize.js:223-227 | Every pointer-down saves the current flags, even when they are already suspended. | down, up, down within 100 ms, restore, up, restore: the second down saves `false`, and both restores put back `false` | sorting comes back after every drag | not executed; medium (needs a second drag within the 100 ms delay) | DragProperties.QuickRedragLosesSortability | DragProperties.GuardedDragsKeepSortability |

## Left out

- Hover handling and markup: the column mousemove and mouseout handlers (lines 193-208), the hover-class removal on pointer-up (lines 176-178), and the `data-is-resizable` attribute that construction writes (line 187) and disabling removes (line 133). They only toggle a CSS class or an attribute that the plugin never reads.
- Bound-class styling: adding and removing the min/max classes and the 500 ms removal timers (lines 306-308, 320-322). Adding a class is recorded as a `FlashMinBound` / `FlashMaxBound` effect.
- Scroll-body syncing: the `nth-child` and `!important` width copying (lines 268-284). Only the shrink and pin decisions are modelled.
- Autoscroll: the `scrollLeft` assignment (line 158) is recorded as a `ScrollToEnd` effect. The existence of a scroll body is taken to be the `scrolling` field of the table layout.
- Pointer coordinates: `_fnGetXCoords` (lines 247-249) picks the mouse or first touch x. The x is a field of the event.
- Callback payloads: `_fnMapColumn` (lines 331-333) is not modelled. The callbacks themselves are opaque and only recorded as effects.
- Module loading and host registration are not modelled: the loader, feature and API registration, the `preInit` listener, `camelToHungarian`, `_fnLog` and `alert` (lines 11-36, 78-83, 396-462). A `_fnLog` warning is recorded as a `Warn` effect.
- Fractional pixels and floating point: widths, offsets and pointer positions are integers. `parseInt` of a digit string too long for a double is read exactly.
- Settings.Fallback: the `length` own property of strings and any own properties of functions are not modelled. No default has such a key.
- Bounds.BoundCheck: makes no claim about the resulting width when min > max (both corrections then apply).
- A user-supplied `isResizable` option is a parameter of the operations (a total function on columns), not a value inside the options.
- `types.d.ts` holds type declarations only.
- Columns.DefaultIsResizable: a construction that throws is not modelled. A column option of null makes `isResizable.toString()` at line 187 throw, but the model treats it as non-resizable.
- Layout.PinsBodyWidths: the table width re-measured at line 278 is taken to be the width set at line 265. A browser may lay an HTML table out wider than the width it is given, because it is never narrower than its columns' minimum widths (section 17.5.2 of CSS 2.1). The pin decision, and the shrink "counted twice", hold under this assumption only.
- Several instances on one page: `fnDisable` calls `$(document).off('.ColResize')` (line 129), which removes the document handlers of every instance. A drag then started on another table is never ended. The model has one instance, so it cannot show this.

=== FILE: bounds.dfy ===
/**
 The bound check of a drag: a proposed change of width is corrected so that
 the resulting width stays within the header cell's CSS `min-width` and
 `max-width`, and a pair of latches decides when the bound-violation class
 is flashed on the cell.
 */
module Bounds {
  import opened Wrappers
  import Css

  /**
   A bound as the drag state holds it: `Some(-1)` for CSS `none`, and
   `None` for a value `parseInt` could not read (NaN). Comparisons with NaN
   are false, so a `None` bound never constrains.
   */
  type Bound = Option<int>

  /** Does the bound take part in the check? */
  predicate Active(b: Bound) {
    b.Some? && b.value != Css.Unbounded
  }

  predicate BelowMin(width: int, min: Bound) {
    Active(min) && width < min.value
  }

  predicate AboveMax(width: int, max: Bound) {
    Active(max) && width > max.value
  }

  /** The bounds are not crossed (the model claims nothing when min > max). */
  predicate Ordered(min: Bound, max: Bound) {
    Active(min) && Active(max) ==> min.value <= max.value
  }

  /** A width inside both active bounds. */
  predicate Within(width: int, min: Bound, max: Bound) {
    !BelowMin(width, min) && !AboveMax(width, max)
  }

  /** The width clamped into the active bounds: the reference the bound check is measured against. */
  function Clamp(w: int, min: Bound, max: Bound): (r: int)
    requires Ordered(min, max)
    ensures Within(r, min, max)
    ensures Within(w, min, max) ==> r == w
    ensures BelowMin(w, min) ==> r == min.value
    ensures AboveMax(w, max) ==> r == max.value
  {
    if BelowMin(w, min) then min.value else if AboveMax(w, max) then max.value else w
  }

  /**
   `minBoundAllowClass` / `maxBoundAllowClass`: whether the next violation
   of that bound may add its class to the cell.
   */
  datatype Latches = Latches(minAllow: bool, maxAllow: bool)

  const Armed := Latches(true, true)

  /** The corrected change of width, the new latches, and which classes are added this frame. */
  datatype Checked = Checked(delta: int, latches: Latches, flashMin: bool, flashMax: bool)

  /**
   `_fnBoundCheck`: the wish width is the width at pointer-down plus the
   proposed change; a deficit below the minimum is added back, an excess
   above the maximum is taken off.
   */
  function BoundCheck(delta: int, originalWidth: int, min: Bound, max: Bound, latches: Latches): (r: Checked)
    // with ordered bounds the applied width is the wish width clamped to them
    ensures Ordered(min, max) ==> Within(originalWidth + r.delta, min, max)
    ensures Within(originalWidth + delta, min, max) ==> r.delta == delta
    ensures Ordered(min, max) && BelowMin(originalWidth + delta, min) ==> originalWidth + r.delta == min.value
    ensures Ordered(min, max) && AboveMax(originalWidth + delta, max) ==> originalWidth + r.delta == max.value
    // a class is added only while its latch is open, and each latch closes exactly while its bound is violated
    ensures r.flashMin <==> latches.minAllow && BelowMin(originalWidth + delta, min)
    ensures r.flashMax <==> latches.maxAllow && AboveMax(originalWidth + delta, max)
    ensures r.latches.minAllow <==> !BelowMin(originalWidth + delta, min)
    ensures r.latches.maxAllow <==> !AboveMax(originalWidth + delta, max)
  {
    var wish := originalWidth + delta;
    var below := BelowMin(wish, min);
    var above := AboveMax(wish, max);
    // both checks compare the wish width, not the width corrected by the first
    var d1 := if below then delta + (min.value - wish) else delta;
    var d2 := if above then d1 - (wish - max.value) else d1;
    // a violation closes its latch (adding the class if it was open); any other frame reopens it
    var flashMin, minAllow := below && latches.minAllow, !below;
    var flashMax, maxAllow := above && latches.maxAllow, !above;
    Checked(d2, Latches(minAllow, maxAllow), flashMin, flashMax)
  }

  /** The change of width the drag applies, with or without the bound check. */
  function Corrected(hasBoundCheck: bool, delta: int, originalWidth: int, min: Bound, max: Bound): (r: int)
    ensures !hasBoundCheck ==> r == delta
    ensures hasBoundCheck && Ordered(min, max) ==> originalWidth + r == Clamp(originalWidth + delta, min, max)
  {
    if hasBoundCheck then BoundCheck(delta, originalWidth, min, max, Armed).delta else delta
  }

  /** The corrected change does not depend on the latches. */
  lemma DeltaIgnoresLatches(delta: int, originalWidth: int, min: Bound, max: Bound, a: Latches, b: Latches)
    ensures BoundCheck(delta, originalWidth, min, max, a).delta == BoundCheck(delta, originalWidth, min, max, b).delta
  {
  }

  /** Successive frames of one drag, each with its proposed change, threading the latches. */
  function Frames(originalWidth: int, min: Bound, max: Bound, latches: Latches, deltas: seq<int>): (r: seq<Checked>)
    ensures |r| == |deltas|
    decreases deltas
  {
    if deltas == [] then []
    else
      var c := BoundCheck(deltas[0], originalWidth, min, max, latches);
      [c] + Frames(originalWidth, min, max, c.latches, deltas[1..])
  }

  /**
   The latch rule over a run of frames: frame k adds the min-bound class iff
   it is below the minimum and either it is the first frame (the latches
   start open) or the frame before it was not below the minimum. So the
   class is added once per run of consecutive out-of-bounds frames; the same
   holds for the maximum.
   */
  lemma {:induction false} LatchFiresOncePerRun(originalWidth: int, min: Bound, max: Bound, latches: Latches, deltas: seq<int>, k: nat)
    requires k < |deltas|
    ensures var f := Frames(originalWidth, min, max, latches, deltas)[k];
      && (f.flashMin <==> BelowMin(originalWidth + deltas[k], min) &&
                          (if k == 0 then latches.minAllow else !BelowMin(originalWidth + deltas[k - 1], min)))
      && (f.flashMax <==> AboveMax(originalWidth + deltas[k], max) &&
                          (if k == 0 then latches.maxAllow else !AboveMax(originalWidth + deltas[k - 1], max)))
    decreases k
  {
    var c := BoundCheck(deltas[0], originalWidth, min, max, latches);
    if k > 0 {
      LatchFiresOncePerRun(originalWidth, min, max, c.latches, deltas[1..], k - 1);
      if k - 1 == 0 {
        assert deltas[1..][0] == deltas[1];
      } else {
        assert deltas[1..][k - 2] == deltas[k - 1];
      }
      assert deltas[1..][k - 1] == deltas[k];
    }
  }

  /** Every frame applies the same change it would have applied as the first frame. */
  lemma {:induction false} FramesApplyClampedDelta(originalWidth: int, min: Bound, max: Bound, latches: Latches, deltas: seq<int>, k: nat)
    requires k < |deltas|
    ensures Frames(originalWidth, min, max, latches, deltas)[k].delta == Corrected(true, deltas[k], originalWidth, min, max)
    decreases k
  {
    var c := BoundCheck(deltas[0], originalWidth, min, max, latches);
    if k > 0 {
      FramesApplyClampedDelta(originalWidth, min, max, c.latches, deltas[1..], k - 1);
      assert deltas[1..][k - 1] == deltas[k];
    }
  }
}

=== FILE: colresize.dfy ===
/**
 The plugin instance: its drag state, the lifecycle operations
 (construction, enable, disable, reset) and the pointer handlers, as pure
 transitions over an immutable session record.

 Pointer events carry the DOM measurements the handlers take; the two
 timers of the source become explicit steps: the delayed sortability
 restore is the `SortRestoreTimer` event, and the removal of a bound class
 500ms after it is flashed is not modelled (it only affects styling).
 */
module ColResize {
  import opened Wrappers
  import Css
  import Bounds
  import Layout
  import opened Columns
  import Settings

  /** `this.s.state`. The dragged header cell is the dragged column's header. */
  datatype DragState = DragState(
    isDragging: bool,
    startX: int,
    originalWidth: int,
    minWidth: Bounds.Bound,
    maxWidth: Bounds.Bound,
    column: Option<nat>,
    latches: Bounds.Latches,
    isLastColumnDragging: bool)

  /** The drag state a new instance starts with. */
  const InitialState := DragState(false, 0, 0, Some(0), Some(0), None, Bounds.Armed, false)

  /**
   One plugin instance on one table: whether its handlers are registered
   (`isEnabled`), the `hasBoundCheck` option, the drag state, the host's
   columns, and the number of sortability restores scheduled by pointer-up
   that have not run yet.
   */
  datatype Session = Session(
    enabled: bool,
    hasBoundCheck: bool,
    state: DragState,
    columns: seq<Column>,
    pendingRestores: nat)

  /**
   The program as written, or with the two corrections of this model.
   `AsWritten` reads a cell's bounds with `_fnGetWidthOfValue` and keeps the
   source's sortability bookkeeping. `Guarded` reads the bounds with the
   decimal pattern, saves the sortability flags only when no drag is active
   and no restore is pending, and restores them only when no drag is active.
   */
  datatype Policy = AsWritten | Guarded

  /** How pointer-down reads a cell's computed `min-width` or `max-width` under a policy. */
  function ReadBound(policy: Policy, css: string): (r: Bounds.Bound)
    ensures policy == AsWritten ==> r == Css.GetWidthOfValue(css)
    ensures policy == Guarded ==> r == Css.ParseWidth(css)
  {
    Css.ReadWidth(css, if policy == AsWritten then Css.IntegerPx else Css.DecimalPx)
  }

  /** What the handlers read from the header cell under the pointer. */
  datatype HeaderCell = HeaderCell(left: int, outerWidth: int, minWidthCss: string, maxWidthCss: string)

  datatype Event =
    | PointerDown(column: nat, cell: HeaderCell, x: int)
    | PointerMove(x: int, table: Layout.TableLayout)
    | PointerUp
    | SortRestoreTimer
    | Enable
    | Disable
    | Reset

  /** What a step does outside the session: callbacks, styling, logging. */
  datatype Effect =
    | ResizeStart
    | Resize(column: nat)
    | ResizeEnd(dragged: Option<nat>)
    | FlashMinBound(column: nat)
    | FlashMaxBound(column: nat)
    | SetTableWidth(width: int)
    | PinBodyWidths
    | ScrollToEnd
    | Warn

  datatype Transition = Transition(next: Session, effects: seq<Effect>)

  function NoChange(s: Session): Transition {
    Transition(s, [])
  }

  // ---------------------------------------------------------------------------
  // Construction and the public operations
  // ---------------------------------------------------------------------------

  /**
   `_fnConstruct`: every column resizable under the option gets the drag
   handler and has its current `sWidth` saved as `_sResizableWidth`.
   */
  function Construct(s: Session, resizable: Column -> bool): (r: Session)
    ensures r.enabled && |r.columns| == |s.columns|
    ensures r == s.(enabled := r.enabled, columns := r.columns)
    ensures forall i :: 0 <= i < |s.columns| ==>
      r.columns[i] == s.columns[i].(
        dragHandle := resizable(s.columns[i]),
        resizableWidth := if resizable(s.columns[i]) then s.columns[i].sWidth else s.columns[i].resizableWidth)
  {
    var cols := seq(|s.columns|, i requires 0 <= i < |s.columns| =>
      var c := s.columns[i];
      if resizable(c) then c.(dragHandle := true, resizableWidth := c.sWidth) else c.(dragHandle := false));
    s.(enabled := true, columns := cols)
  }

  /**
   `new ColResize(dt, opts)`: the options are merged first (which may
   throw); a table that already has an instance keeps it; otherwise a new
   instance starts idle and is constructed when `isEnabled` is truthy.
   */
  function Init(existing: Option<Session>, user: Settings.JsValue, columns: seq<Column>, resizable: Column -> bool)
    : (r: Result<Session, Settings.TypeError>)
    ensures existing.Some? && r.Success? ==> r.value == existing.value
    ensures existing.None? && !Settings.Truthy(user) ==>
      r.Success? && r.value.enabled && r.value.hasBoundCheck && r.value.state == InitialState && r.value.pendingRestores == 0
    ensures r.Success? && existing.None? ==> |r.value.columns| == |columns| && r.value.state == InitialState
    ensures r.Failure? <==> Settings.ResolveOptions(user).Failure?
    // a new instance takes `isEnabled` and `hasBoundCheck` from the merged options
    ensures existing.None? && r.Success? ==>
      var opts := Settings.ResolveOptions(user).value;
      && r.value.enabled == Settings.Truthy(opts.props["isEnabled"])
      && r.value.hasBoundCheck == Settings.Truthy(opts.props["hasBoundCheck"])
      && r.value.pendingRestores == 0
      && (r.value.enabled ==> r.value == Construct(r.value.(enabled := false, columns := columns), resizable))
      && (!r.value.enabled ==> r.value.columns == columns)
  {
    match Settings.ResolveOptions(user)
    case Failure(e) => Failure(e)
    case Success(opts) =>
      if existing.Some? then Success(existing.value)
      else
        var s := Session(false, Settings.Truthy(opts.props["hasBoundCheck"]), InitialState, columns, 0);
        if Settings.Truthy(opts.props["isEnabled"]) then Success(Construct(s, resizable)) else Success(s)
  }

  /** `fnEnable`: a second enable is logged and ignored. */
  function EnableStep(s: Session, resizable: Column -> bool): (r: Transition)
    ensures r.next.enabled
    ensures s.enabled ==> r == Transition(s, [Warn])
    ensures !s.enabled ==> r == Transition(Construct(s, resizable), [])
  {
    if s.enabled then Transition(s, [Warn]) else Transition(Construct(s, resizable), [])
  }

  /** `fnDisable`: every handler goes; a second disable is logged and ignored. */
  function DisableStep(s: Session): (r: Transition)
    ensures !r.next.enabled
    ensures !s.enabled ==> r == Transition(s, [Warn])
    ensures s.enabled ==> r.effects == [] && r.next == s.(enabled := false, columns := r.next.columns)
    ensures |r.next.columns| == |s.columns|
    ensures s.enabled ==> forall i :: 0 <= i < |s.columns| ==> r.next.columns[i] == s.columns[i].(dragHandle := false)
  {
    if !s.enabled then Transition(s, [Warn])
    else
      var cols := seq(|s.columns|, i requires 0 <= i < |s.columns| => s.columns[i].(dragHandle := false));
      Transition(s.(enabled := false, columns := cols), [])
  }

  /** `fnReset`: every column's widths go back to its saved `_sResizableWidth`. */
  function ResetStep(s: Session): (r: Transition)
    ensures r.effects == [ResizeEnd(None)]
    ensures r.next == s.(columns := r.next.columns) && |r.next.columns| == |s.columns|
    ensures forall i :: 0 <= i < |s.columns| ==>
      r.next.columns[i] == s.columns[i].(sWidth := s.columns[i].resizableWidth, width := s.columns[i].resizableWidth)
  {
    var cols := seq(|s.columns|, i requires 0 <= i < |s.columns| =>
      s.columns[i].(width := s.columns[i].resizableWidth, sWidth := s.columns[i].resizableWidth));
    Transition(s.(columns := cols), [ResizeEnd(None)])
  }

  // ---------------------------------------------------------------------------
  // Sortability
  // ---------------------------------------------------------------------------

  /** Switch sorting off on every column, saving each flag first when `save` holds. */
  function SuspendSorting(cols: seq<Column>, save: bool): (r: seq<Column>)
    ensures |r| == |cols|
    ensures forall i :: 0 <= i < |cols| ==>
      r[i] == cols[i].(sortable := false, sortableHolder := if save then Some(cols[i].sortable) else cols[i].sortableHolder)
  {
    seq(|cols|, i requires 0 <= i < |cols| =>
      cols[i].(sortableHolder := if save then Some(cols[i].sortable) else cols[i].sortableHolder, sortable := false))
  }

  /** Every column takes back its saved flag; a flag never saved is undefined, which reads as false. */
  function RestoreSorting(cols: seq<Column>): (r: seq<Column>)
    ensures |r| == |cols|
    ensures forall i :: 0 <= i < |cols| ==>
      r[i] == cols[i].(sortable := cols[i].sortableHolder == Some(true))
  {
    seq(|cols|, i requires 0 <= i < |cols| => cols[i].(sortable := cols[i].sortableHolder == Some(true)))
  }

  // ---------------------------------------------------------------------------
  // Pointer handlers
  // ---------------------------------------------------------------------------

  /** Does a pointer-down on this column's header start a drag? */
  predicate StartsDrag(s: Session, col: nat, cell: HeaderCell, x: int) {
    s.enabled && col < |s.columns| && s.columns[col].dragHandle && Layout.IsInDragArea(cell.left, cell.outerWidth, x)
  }

  /** A drag is in progress on a column of the table. */
  predicate Dragging(s: Session) {
    s.state.isDragging && s.state.column.Some? && s.state.column.value < |s.columns|
  }

  /**
   The column pointer-down handler: inside the drag band it captures the
   pointer, the cell's width and bounds, re-arms the latches, and suspends
   sorting.
   */
  function PointerDownStep(policy: Policy, resizable: Column -> bool, s: Session, col: nat, cell: HeaderCell, x: int)
    : (r: Transition)
    ensures !StartsDrag(s, col, cell, x) ==> r == NoChange(s)
    ensures r.next == s.(state := r.next.state, columns := r.next.columns) && |r.next.columns| == |s.columns|
    ensures StartsDrag(s, col, cell, x) ==>
      && Dragging(r.next) && r.next.state.column == Some(col)
      && r.next.state.startX == x && r.next.state.originalWidth == cell.outerWidth
      && r.next.state.latches == Bounds.Armed
      && r.next.state.isLastColumnDragging == IsLastResizable(s.columns, col, resizable)
      && r.effects == [ResizeStart]
      && r.next.state.minWidth == ReadBound(policy, cell.minWidthCss)
      && r.next.state.maxWidth == ReadBound(policy, cell.maxWidthCss)
      && (forall i :: 0 <= i < |s.columns| ==>
            r.next.columns[i] == s.columns[i].(sortable := false, sortableHolder := r.next.columns[i].sortableHolder))
    // the source saves every flag; the guarded policy only while nothing is suspended yet
    ensures StartsDrag(s, col, cell, x) && (policy == AsWritten || (!s.state.isDragging && s.pendingRestores == 0)) ==>
      forall i :: 0 <= i < |s.columns| ==> r.next.columns[i].sortableHolder == Some(s.columns[i].sortable)
    ensures StartsDrag(s, col, cell, x) && policy == Guarded && (s.state.isDragging || s.pendingRestores > 0) ==>
      forall i :: 0 <= i < |s.columns| ==> r.next.columns[i].sortableHolder == s.columns[i].sortableHolder
  {
    if !StartsDrag(s, col, cell, x) then NoChange(s)
    else
      var save := policy == AsWritten || (!s.state.isDragging && s.pendingRestores == 0);
      var state := DragState(
        true, x, cell.outerWidth,
        ReadBound(policy, cell.minWidthCss), ReadBound(policy, cell.maxWidthCss),
        Some(col), Bounds.Armed,
        IsLastResizable(s.columns, col, resizable));
      Transition(s.(state := state, columns := SuspendSorting(s.columns, save)), [ResizeStart])
  }

  /** The width a frame applies to the dragged column when the pointer is at x. */
  function AppliedWidth(st: DragState, hasBoundCheck: bool, x: int): int {
    st.originalWidth + Bounds.Corrected(hasBoundCheck, x - st.startX, st.originalWidth, st.minWidth, st.maxWidth)
  }

  /**
   A frame's effects are drawn from the flashes of column c, the table
   resize to w and the pinning of the body widths, and none occurs twice.
   */
  predicate OnlyFrameEffects(r: seq<Effect>, c: nat, w: int) {
    && (forall e :: e in r ==> e in {FlashMinBound(c), FlashMaxBound(c), SetTableWidth(w), PinBodyWidths})
    && (forall i, j :: 0 <= i < j < |r| ==> r[i] != r[j])
  }

  /**
   What one frame does to the page besides the column's width: the bound
   classes it adds, the table resize, and the pinning of the body widths.
   */
  function FrameEffects(c: nat, k: Bounds.Checked, table: Layout.TableLayout): (r: seq<Effect>)
    ensures FlashMinBound(c) in r <==> k.flashMin
    ensures FlashMaxBound(c) in r <==> k.flashMax
    ensures var w := Layout.TableWidthAfter(k.delta, table);
      && (w < table.tableWidth ==> SetTableWidth(w) in r)
      && (forall e :: e in r && e.SetTableWidth? ==> e.width == w && w < table.tableWidth)
    ensures PinBodyWidths in r <==> Layout.PinsBodyWidths(k.delta, table)
    ensures OnlyFrameEffects(r, c, Layout.TableWidthAfter(k.delta, table))
  {
    var tableWidth := Layout.TableWidthAfter(k.delta, table);
    (if k.flashMin then [FlashMinBound(c)] else []) +
    (if k.flashMax then [FlashMaxBound(c)] else []) +
    (if tableWidth != table.tableWidth then [SetTableWidth(tableWidth)] else []) +
    (if Layout.PinsBodyWidths(k.delta, table) then [PinBodyWidths] else [])
  }

  /**
   `_fnApplyWidth` and `_fnApplyWidthColumn`: the bound-checked change is
   added to the width captured at pointer-down and written as the column's
   `sWidth`; the table shrinks with the column when it is wider than its
   scrolling wrapper.
   */
  function ApplyWidth(s: Session, changed: int, table: Layout.TableLayout): (r: Transition)
    requires Dragging(s)
    ensures var c := s.state.column.value;
      && r.next == s.(state := r.next.state, columns := r.next.columns)
      && r.next.state == s.state.(latches := r.next.state.latches)
      && r.next.columns == s.columns[c := s.columns[c].(sWidth := Text(Css.PxText(AppliedWidth(s.state, s.hasBoundCheck, s.state.startX + changed))))]
    // the bound classes follow the latches of the bound check, and only with it on
    ensures var st := s.state; var c := st.column.value;
      var k := Bounds.BoundCheck(changed, st.originalWidth, st.minWidth, st.maxWidth, st.latches);
      && (s.hasBoundCheck ==> r.next.state.latches == k.latches)
      && (FlashMinBound(c) in r.effects <==> s.hasBoundCheck && k.flashMin)
      && (FlashMaxBound(c) in r.effects <==> s.hasBoundCheck && k.flashMax)
    ensures !s.hasBoundCheck ==> r.next.state == s.state
    // the table shrinks with the column as `Layout.TableWidthAfter` decides, and the body widths are pinned as `Layout.PinsBodyWidths` decides
    ensures var st := s.state;
      var d := Bounds.Corrected(s.hasBoundCheck, changed, st.originalWidth, st.minWidth, st.maxWidth);
      var w := Layout.TableWidthAfter(d, table);
      && (w < table.tableWidth ==> SetTableWidth(w) in r.effects)
      && (forall e :: e in r.effects && e.SetTableWidth? ==> e.width == w && w < table.tableWidth)
      && (PinBodyWidths in r.effects <==> Layout.PinsBodyWidths(d, table))
    // a frame has no other effect, and none twice
    ensures var st := s.state; var c := st.column.value;
      var d := Bounds.Corrected(s.hasBoundCheck, changed, st.originalWidth, st.minWidth, st.maxWidth);
      OnlyFrameEffects(r.effects, c, Layout.TableWidthAfter(d, table))
  {
    var st := s.state;
    var c := st.column.value;
    var checked :=
      if s.hasBoundCheck then Bounds.BoundCheck(changed, st.originalWidth, st.minWidth, st.maxWidth, st.latches)
      else Bounds.Checked(changed, st.latches, false, false);
    Bounds.DeltaIgnoresLatches(changed, st.originalWidth, st.minWidth, st.maxWidth, st.latches, Bounds.Armed);
    var thWidth := st.originalWidth + checked.delta;
    var columns := s.columns[c := s.columns[c].(sWidth := Text(Css.PxText(thWidth)))];
    var effects := FrameEffects(c, checked, table);
    Transition(s.(state := st.(latches := checked.latches), columns := columns), effects)
  }

  /**
   The document pointer-move handler: while a drag is active the width is
   recomputed from the pointer-down position, never from the previous frame.
   */
  function PointerMoveStep(s: Session, x: int, table: Layout.TableLayout): (r: Transition)
    ensures !(s.enabled && Dragging(s)) ==> r == NoChange(s)
    ensures s.enabled && Dragging(s) ==> r.next == ApplyWidth(s, x - s.state.startX, table).next
    ensures s.enabled && Dragging(s) ==> var c := s.state.column.value; var applied := ApplyWidth(s, x - s.state.startX, table);
      && (FlashMinBound(c) in r.effects <==> FlashMinBound(c) in applied.effects)
      && (FlashMaxBound(c) in r.effects <==> FlashMaxBound(c) in applied.effects)
    // every effect of the frame, then the resize report, then the scroll of a last column in a scrolling table
    ensures s.enabled && Dragging(s) ==> var c := s.state.column.value;
      r.effects == ApplyWidth(s, x - s.state.startX, table).effects + [Resize(c)] +
        (if s.state.isLastColumnDragging && table.scrolling then [ScrollToEnd] else [])
  {
    if !(s.enabled && Dragging(s)) then NoChange(s)
    else
      var applied := ApplyWidth(s, x - s.state.startX, table);
      var c := s.state.column.value;
      Transition(applied.next,
        applied.effects + [Resize(c)] + (if s.state.isLastColumnDragging && table.scrolling then [ScrollToEnd] else []))
  }

  /**
   The document pointer-up handler: it always ends the drag; after an
   active drag it schedules the sortability restore and reports the end.
   */
  function PointerUpStep(s: Session): (r: Transition)
    ensures s.enabled ==> !r.next.state.isDragging
    ensures r.next.columns == s.columns
    ensures s.enabled && s.state.isDragging ==>
      r.next.pendingRestores == s.pendingRestores + 1 && r.effects == [ResizeEnd(s.state.column)]
    ensures s.enabled && s.state.isDragging ==>
      r.next == s.(state := s.state.(isDragging := false), pendingRestores := s.pendingRestores + 1)
    ensures !(s.enabled && s.state.isDragging) ==> r == NoChange(s)
  {
    if !s.enabled then NoChange(s)
    else if s.state.isDragging then
      Transition(s.(state := s.state.(isDragging := false), pendingRestores := s.pendingRestores + 1),
        [ResizeEnd(s.state.column)])
    else NoChange(s.(state := s.state.(isDragging := false)))
  }

  /** A scheduled sortability restore runs. */
  function SortRestoreStep(policy: Policy, s: Session): (r: Transition)
    ensures r.effects == [] && r.next.state == s.state && |r.next.columns| == |s.columns|
    ensures s.pendingRestores == 0 ==> r.next == s
    ensures s.pendingRestores > 0 ==> r.next.pendingRestores == s.pendingRestores - 1
    ensures s.pendingRestores > 0 ==> r.next == s.(pendingRestores := s.pendingRestores - 1, columns := r.next.columns)
    ensures s.pendingRestores > 0 && (policy == AsWritten || !s.state.isDragging) ==>
      forall i :: 0 <= i < |s.columns| ==>
        r.next.columns[i] == s.columns[i].(sortable := s.columns[i].sortableHolder == Some(true))
    ensures policy == Guarded && s.state.isDragging ==> r.next.columns == s.columns
  {
    if s.pendingRestores == 0 then NoChange(s)
    else
      var restore := policy == AsWritten || !s.state.isDragging;
      NoChange(s.(pendingRestores := s.pendingRestores - 1,
                  columns := if restore then RestoreSorting(s.columns) else s.columns))
  }

  function Step(policy: Policy, resizable: Column -> bool, s: Session, e: Event): Transition {
    match e
    case PointerDown(col, cell, x) => PointerDownStep(policy, resizable, s, col, cell, x)
    case PointerMove(x, table) => PointerMoveStep(s, x, table)
    case PointerUp => PointerUpStep(s)
    case SortRestoreTimer => SortRestoreStep(policy, s)
    case Enable => EnableStep(s, resizable)
    case Disable => DisableStep(s)
    case Reset => ResetStep(s)
  }

  /** The transition of each event of a sequence, in order. */
  function Trace(policy: Policy, resizable: Column -> bool, s: Session, events: seq<Event>): (r: seq<Transition>)
    ensures |r| == |events|
    decreases |events|
  {
    if events == [] then []
    else
      var t := Step(policy, resizable, s, events[0]);
      [t] + Trace(policy, resizable, t.next, events[1..])
  }

  /** The session after a sequence of events. */
  function Run(policy: Policy, resizable: Column -> bool, s: Session, events: seq<Event>): Session
    decreases |events|
  {
    if events == [] then s else Run(policy, resizable, Step(policy, resizable, s, events[0]).next, events[1..])
  }
}

=== FILE: columns.dfy ===
/**
 The host table's column records, as far as the plugin reads and writes
 them, and the two column predicates: the default resizability option and
 whether a column is the last resizable one on screen.
 */
module Columns {
  import opened Wrappers
  import Settings

  /** A width as the host table stores it: absent (null or undefined) or a CSS string. */
  datatype CssValue = Absent | Text(text: string)

  /**
   One entry of the host's column list. `sWidth` and `width` are the
   host's width fields; `resizableWidth` is `_sResizableWidth`, the width
   saved when the plugin is constructed; `sortableHolder` is
   `_bSortableTempHolder` (absent until the first drag); `isResizable` is the
   column's own option, any JavaScript value; `dragHandle` says the
   header cell carries the plugin's pointer-down handler.
   */
  datatype Column = Column(
    idx: nat,
    sWidth: CssValue,
    width: CssValue,
    resizableWidth: CssValue,
    sortable: bool,
    sortableHolder: Option<bool>,
    visible: bool,
    isResizable: Settings.JsValue,
    dragHandle: bool)

  /**
   The default `isResizable` option: an undefined column option means
   resizable, any other value is returned as it is, and the caller tests it
   for truthiness.
   */
  function DefaultIsResizable(c: Column): (r: bool)
    ensures !r <==> c.isResizable != Settings.Undefined && !Settings.Truthy(c.isResizable)
  {
    if c.isResizable.Undefined? then true else Settings.Truthy(c.isResizable)
  }

  /** No visible column at or after position `from` is resizable. */
  predicate NoResizableVisibleFrom(cols: seq<Column>, from: int, resizable: Column -> bool) {
    forall j :: 0 <= j < |cols| && from <= j && cols[j].visible ==> !resizable(cols[j])
  }

  /**
   Whether the dragged column is the last resizable one on screen: no
   visible column after it is resizable. A column that is not visible
   itself is looked for in vain among the visible ones, so the scan then
   covers every visible column.
   */
  function IsLastResizable(cols: seq<Column>, dragging: nat, resizable: Column -> bool): bool
    requires dragging < |cols|
  {
    if cols[dragging].visible then NoResizableVisibleFrom(cols, dragging + 1, resizable)
    else NoResizableVisibleFrom(cols, 0, resizable)
  }

  /** The positions of the visible columns at or after `from`, in column order. */
  function VisibleFrom(cols: seq<Column>, from: nat): (r: seq<nat>)
    requires from <= |cols|
    ensures forall k :: 0 <= k < |r| ==> from <= r[k] < |cols| && cols[r[k]].visible
    ensures forall k, l :: 0 <= k < l < |r| ==> r[k] < r[l]
    ensures forall j :: from <= j < |cols| && cols[j].visible ==> j in r
    decreases |cols| - from
  {
    if from == |cols| then []
    else if cols[from].visible then [from] + VisibleFrom(cols, from + 1)
    else VisibleFrom(cols, from + 1)
  }

  /** `Array.prototype.indexOf`: the first position holding x, or -1. */
  function IndexOf(s: seq<nat>, x: nat): (i: int)
    ensures -1 <= i < |s|
    ensures i >= 0 ==> s[i] == x && x !in s[..i]
    ensures i == -1 ==> x !in s
  {
    if |s| == 0 then -1
    else if s[0] == x then 0
    else
      var i := IndexOf(s[1..], x);
      assert s[1..][..if i < 0 then 0 else i] == s[1..1 + if i < 0 then 0 else i];
      if i == -1 then -1 else i + 1
  }

  /** Every visible column the scan must cover sits after the dragged column in the filtered list. */
  lemma VisibleAfterDragged(cols: seq<Column>, dragging: nat, resizable: Column -> bool, visible: seq<nat>, index: int)
    requires dragging < |cols|
    requires forall k :: 0 <= k < |visible| ==> visible[k] < |cols| && cols[visible[k]].visible
    requires forall k, l :: 0 <= k < l < |visible| ==> visible[k] < visible[l]
    requires forall j :: 0 <= j < |cols| && cols[j].visible ==> j in visible
    requires -1 <= index < |visible|
    requires index >= 0 ==> visible[index] == dragging
    requires index == -1 ==> dragging !in visible
    ensures NoResizableVisibleFrom(cols, if cols[dragging].visible then dragging + 1 else 0, resizable) <==>
      forall m :: index < m < |visible| ==> !resizable(cols[visible[m]])
  {
    var from := if cols[dragging].visible then dragging + 1 else 0;
    assert index >= 0 <==> cols[dragging].visible;
    if NoResizableVisibleFrom(cols, from, resizable) {
      forall m | index < m < |visible|
        ensures !resizable(cols[visible[m]])
      {
        if index >= 0 {
          assert visible[index] < visible[m];
        }
      }
    } else {
      var j :| 0 <= j < |cols| && from <= j && cols[j].visible && resizable(cols[j]);
      assert j in visible;
      var m :| 0 <= m < |visible| && visible[m] == j;
      if index >= 0 {
        assert visible[index] < visible[m];
        assert !(m <= index);
      }
    }
  }

  /** The scan of the filtered list from position `start` on: is no column there resizable? */
  method NoneResizableFrom(cols: seq<Column>, visible: seq<nat>, start: nat, resizable: Column -> bool) returns (r: bool)
    requires forall k :: 0 <= k < |visible| ==> visible[k] < |cols|
    ensures r <==> forall m :: start <= m < |visible| ==> !resizable(cols[visible[m]])
  {
    var counter := start;
    while counter < |visible|
      invariant start <= counter
      invariant forall m :: start <= m < counter && m < |visible| ==> !resizable(cols[visible[m]])
    {
      var column := cols[visible[counter]];
      if resizable(column) {
        return false;
      }
      counter := counter + 1;
    }
    return true;
  }

  /**
   `_fnIsLastResizableColumnDragging`: filter the visible columns, find the
   dragged one among them, and scan the ones after it for a resizable
   column.
   */
  method IsLastResizableColumnDragging(cols: seq<Column>, dragging: nat, resizable: Column -> bool) returns (r: bool)
    requires dragging < |cols|
    ensures r == IsLastResizable(cols, dragging, resizable)
  {
    var visibleColumns := VisibleFrom(cols, 0);
    var indexOfColumn := IndexOf(visibleColumns, dragging);
    VisibleAfterDragged(cols, dragging, resizable, visibleColumns, indexOfColumn);
    if indexOfColumn == |visibleColumns| - 1 {
      return true;
    }
    r := NoneResizableFrom(cols, visibleColumns, indexOfColumn + 1, resizable);
  }
}

=== FILE: css.dfy ===
/**
 Width strings as the plugin reads and writes them: the pixel strings written
 into a column's `sWidth`, and the reading of computed `min-width` /
 `max-width` values into numbers.

 `parseInt` returning NaN is modelled as `None`.
 */
module Css {
  import opened Wrappers

  predicate IsDigit(c: char) {
    '0' <= c <= '9'
  }

  predicate AllDigits(s: string) {
    forall i :: 0 <= i < |s| ==> IsDigit(s[i])
  }

  function DigitValue(c: char): nat
    requires IsDigit(c)
  {
    (c as int) - ('0' as int)
  }

  function DigitChar(d: nat): (c: char)
    requires d < 10
    ensures IsDigit(c) && DigitValue(c) == d
  {
    ('0' as int + d) as char
  }

  /** The value of a decimal numeral, most significant digit first. */
  function DecimalValue(s: string): nat
    requires AllDigits(s)
  {
    if |s| == 0 then 0 else 10 * DecimalValue(s[..|s| - 1]) + DigitValue(s[|s| - 1])
  }

  /** The shortest decimal numeral of `n`, as JavaScript prints a whole number. */
  function Numeral(n: nat): (r: string)
    ensures |r| > 0 && AllDigits(r)
    ensures DecimalValue(r) == n
    ensures |r| > 1 ==> r[0] != '0'
  {
    if n < 10 then [DigitChar(n)]
    else
      var prefix := Numeral(n / 10);
      var r := prefix + [DigitChar(n % 10)];
      assert r[..|r| - 1] == prefix;
      r
  }

  /** The number a bound of "none" is read as: no bound on that side. */
  const Unbounded: int := -1

  /** The string `width + 'px'` for a whole pixel width. */
  function PxText(n: int): (r: string)
    ensures |r| >= 3 && r[|r| - 2..] == "px"
    ensures n >= 0 ==> AllDigits(r[..|r| - 2]) && DecimalValue(r[..|r| - 2]) == n
    ensures n < 0 ==> r[0] == '-' && AllDigits(r[1..|r| - 2]) && DecimalValue(r[1..|r| - 2]) == -n
  {
    (if n < 0 then "-" + Numeral(-n) else Numeral(n)) + "px"
  }

  // ---------------------------------------------------------------------------
  // Reading a computed width
  // ---------------------------------------------------------------------------

  /** `px` in either case at position j (the regular expression carries the `i` flag). */
  predicate PxAt(s: string, j: nat) {
    j + 2 <= |s| && (s[j] == 'p' || s[j] == 'P') && (s[j + 1] == 'x' || s[j + 1] == 'X')
  }

  /** The end of the run of digits that starts at i. */
  function RunEnd(s: string, i: nat): (j: nat)
    requires i <= |s|
    ensures i <= j <= |s|
    ensures forall k :: i <= k < j ==> IsDigit(s[k])
    ensures j == |s| || !IsDigit(s[j])
    decreases |s| - i
  {
    if i < |s| && IsDigit(s[i]) then RunEnd(s, i + 1) else i
  }

  /**
   The two patterns a width can be read with: `IntegerPx` is the expression
   `(\d)+px` the source uses; `DecimalPx` also admits a fractional part,
   `\d+(\.\d+)?px`, and is the corrected reading.
   */
  datatype Pattern = IntegerPx | DecimalPx

  /** Does the pattern match starting exactly at position p? */
  predicate MatchesAt(s: string, p: nat, pat: Pattern)
    requires p < |s|
  {
    IsDigit(s[p]) &&
    var j := RunEnd(s, p);
    PxAt(s, j) ||
    (pat == DecimalPx && j + 1 < |s| && s[j] == '.' && IsDigit(s[j + 1]) && PxAt(s, RunEnd(s, j + 1)))
  }

  /** All positions of a run of digits share the run's end. */
  lemma {:induction false} RunEndShared(s: string, p: nat, q: nat)
    requires p <= q <= |s|
    requires forall k :: p <= k < q ==> IsDigit(s[k])
    ensures RunEnd(s, p) == RunEnd(s, q)
    decreases q - p
  {
    if p < q {
      RunEndShared(s, p + 1, q);
    }
  }

  /**
   The leftmost match of the pattern in s[i..], as the pair of the start of
   the match and the end of its leading run of digits.
   */
  function FirstMatch(s: string, i: nat, pat: Pattern): (r: Option<(nat, nat)>)
    requires i <= |s|
    ensures r.Some? ==> i <= r.value.0 < r.value.1 <= |s|
    ensures r.Some? ==> MatchesAt(s, r.value.0, pat) && r.value.1 == RunEnd(s, r.value.0)
    ensures r.Some? ==> forall p :: i <= p < r.value.0 ==> !MatchesAt(s, p, pat)
    ensures r.None? ==> forall p :: i <= p < |s| ==> !MatchesAt(s, p, pat)
    decreases |s| - i
  {
    if i == |s| then None
    else if !IsDigit(s[i]) then FirstMatch(s, i + 1, pat)
    else
      var j := RunEnd(s, i);
      if MatchesAt(s, i, pat) then Some((i, j))
      else
        forall p | i <= p < j ensures !MatchesAt(s, p, pat) {
          RunEndShared(s, p, j);
          RunEndShared(s, i, j);
        }
        FirstMatch(s, j, pat)
  }

  /** The number read from the leftmost match, as `parseInt` reads the match array. */
  function ReadWidth(widthStr: string, pat: Pattern): (r: Option<int>)
    ensures widthStr == "none" ==> r == Some(Unbounded)
    ensures widthStr != "none" ==> (r.Some? <==> FirstMatch(widthStr, 0, pat).Some?)
    ensures widthStr != "none" && r.Some? ==>
      var m := FirstMatch(widthStr, 0, pat).value; r.value == DecimalValue(widthStr[m.0..m.1])
  {
    if widthStr == "none" then Some(Unbounded)
    else match FirstMatch(widthStr, 0, pat)
      case None => None
      case Some(m) => Some(DecimalValue(widthStr[m.0..m.1]))
  }

  /** `_fnGetWidthOfValue` as written: "none" is -1, otherwise the digits before `px`. */
  function GetWidthOfValue(widthStr: string): (r: Option<int>)
    ensures widthStr == "none" ==> r == Some(Unbounded)
    ensures widthStr != "none" && r.Some? ==>
      (FirstMatch(widthStr, 0, IntegerPx).Some? &&
       var m := FirstMatch(widthStr, 0, IntegerPx).value; r.value == DecimalValue(widthStr[m.0..m.1]))
    ensures r.Some? && widthStr != "none" ==> r.value >= 0
    ensures r.None? <==> widthStr != "none" && forall p :: 0 <= p < |widthStr| ==> !MatchesAt(widthStr, p, IntegerPx)
  {
    ReadWidth(widthStr, IntegerPx)
  }

  /** The corrected reading: a fractional pixel width keeps its whole-pixel part. */
  function ParseWidth(widthStr: string): (r: Option<int>)
    ensures widthStr == "none" ==> r == Some(Unbounded)
    ensures widthStr != "none" && r.Some? ==>
      (FirstMatch(widthStr, 0, DecimalPx).Some? &&
       var m := FirstMatch(widthStr, 0, DecimalPx).value; r.value == DecimalValue(widthStr[m.0..m.1]))
    ensures r.Some? && widthStr != "none" ==> r.value >= 0
    ensures r.None? <==> widthStr != "none" && forall p :: 0 <= p < |widthStr| ==> !MatchesAt(widthStr, p, DecimalPx)
  {
    ReadWidth(widthStr, DecimalPx)
  }

  /** A numeral followed by `px` (and anything) is read as that numeral under either pattern. */
  lemma {:induction false} ReadsLeadingNumeral(d: string, rest: string, pat: Pattern)
    requires |d| > 0 && AllDigits(d)
    ensures var s := d + "px" + rest;
      && s != "none" && FirstMatch(s, 0, pat) == Some((0, |d|))
      && ReadWidth(s, pat) == Some(DecimalValue(d))
  {
    var s := d + "px" + rest;
    assert s[|d|] == 'p';
    assert forall k :: 0 <= k < |d| ==> s[k] == d[k];
    RunEndShared(s, 0, |d|);
    assert RunEnd(s, |d|) == |d|;
    assert MatchesAt(s, 0, pat);
    assert s[0..|d|] == d;
  }

  /** Reading back what `_fnApplyWidthColumn` writes gives the width that was written. */
  lemma PxTextRoundTrip(n: nat)
    ensures GetWidthOfValue(PxText(n)) == Some(n)
    ensures ParseWidth(PxText(n)) == Some(n)
  {
    assert PxText(n) == Numeral(n) + "px" + "";
    ReadsLeadingNumeral(Numeral(n), "", IntegerPx);
    ReadsLeadingNumeral(Numeral(n), "", DecimalPx);
  }

  /** A run of digits placed at position a, followed by a non-digit, ends where the digits end. */
  lemma {:induction false} RunOfDigits(s: string, a: nat, d: string)
    requires a + |d| < |s| && AllDigits(d) && !IsDigit(s[a + |d|])
    requires s[a..a + |d|] == d
    ensures RunEnd(s, a) == a + |d|
  {
    forall k | a <= k < a + |d| ensures IsDigit(s[k]) {
      assert s[k] == s[a..a + |d|][k - a];
    }
    RunEndShared(s, a, a + |d|);
  }

  /** Every place where `(\d)+px` matches, the decimal pattern matches too. */
  lemma IntegerMatchIsDecimalMatch(s: string, p: nat)
    requires p < |s| && MatchesAt(s, p, IntegerPx)
    ensures MatchesAt(s, p, DecimalPx)
  {
  }

  /**
   When the leftmost decimal match has no fractional part, or there is no
   match at all, the source's reading and the corrected one agree.
   */
  lemma {:induction false} ReadersAgreeWithoutFraction(s: string)
    requires FirstMatch(s, 0, DecimalPx).None? || PxAt(s, FirstMatch(s, 0, DecimalPx).value.1)
    ensures GetWidthOfValue(s) == ParseWidth(s)
  {
    var dec := FirstMatch(s, 0, DecimalPx);
    var whole := FirstMatch(s, 0, IntegerPx);
    if whole.Some? {
      IntegerMatchIsDecimalMatch(s, whole.value.0);
    }
    if dec.Some? {
      assert MatchesAt(s, dec.value.0, IntegerPx);
    }
  }

  /**
   The two readings differ only where the leftmost decimal match has a
   fractional part: `"112.5px"`, but also `"1.2.3px"`, which the source
   reads as 3 and the corrected reading as 2.
   */
  lemma ReadersDifferOnlyOnFractions(s: string)
    requires s != "none" && GetWidthOfValue(s) != ParseWidth(s)
    ensures FirstMatch(s, 0, DecimalPx).Some?
    ensures !PxAt(s, FirstMatch(s, 0, DecimalPx).value.1)
  {
    if FirstMatch(s, 0, DecimalPx).None? || PxAt(s, FirstMatch(s, 0, DecimalPx).value.1) {
      ReadersAgreeWithoutFraction(s);
    }
  }

  /** A width with two dots: the source reads `"1.2.3px"` as 3, the corrected reading as 2. */
  lemma DottedMisread()
    ensures GetWidthOfValue("1.2.3px") == Some(3)
    ensures ParseWidth("1.2.3px") == Some(2)
  {
    var s := "1.2.3px";
    assert RunEnd(s, 4) == 5 && RunEnd(s, 2) == 3 && RunEnd(s, 0) == 1;
    assert !MatchesAt(s, 0, IntegerPx) && !MatchesAt(s, 2, IntegerPx);
    assert FirstMatch(s, 0, IntegerPx) == Some((4, 5));
    assert s[4..5] == "3" && DecimalValue("3") == 3;
    assert !MatchesAt(s, 0, DecimalPx) && MatchesAt(s, 2, DecimalPx);
    assert FirstMatch(s, 0, DecimalPx) == Some((2, 3));
    assert s[2..3] == "2" && DecimalValue("2") == 2;
  }

  /** The corrected reading keeps the whole-pixel part of a fractional width. */
  lemma {:induction false} FractionalRead(n: nat, f: nat)
    ensures ParseWidth(Numeral(n) + "." + Numeral(f) + "px") == Some(n)
  {
    var d, g := Numeral(n), Numeral(f);
    var s := d + "." + g + "px";
    var e := |d| + 1 + |g|;
    assert s[0..|d|] == d;
    assert s[|d|] == '.';
    RunOfDigits(s, 0, d);
    assert s[|d| + 1..e] == g;
    assert s[e] == 'p' && s[e + 1] == 'x';
    RunOfDigits(s, |d| + 1, g);
    assert MatchesAt(s, 0, DecimalPx);
    assert FirstMatch(s, 0, DecimalPx) == Some((0, |d|));
  }

  /**
   The source's reading of a fractional width: "112.5px" yields 5, because
   the leftmost place where `(\d)+px` matches is the fractional digit.
   */
  lemma FractionalMisread()
    ensures GetWidthOfValue("112.5px") == Some(5)
    ensures ParseWidth("112.5px") == Some(112)
  {
    var s := "112.5px";
    assert RunEnd(s, 5) == 5;
    assert RunEnd(s, 3) == 3;
    RunEndShared(s, 0, 3);
    assert !MatchesAt(s, 0, IntegerPx);
    assert FirstMatch(s, 4, IntegerPx) == Some((4, 5));
    assert FirstMatch(s, 0, IntegerPx) == FirstMatch(s, 3, IntegerPx) == FirstMatch(s, 4, IntegerPx);
    assert s[4..5] == "5";
    assert Numeral(1) == "1";
    assert Numeral(11) == "11";
    assert Numeral(112) == "112";
    assert Numeral(5) == "5";
    FractionalRead(112, 5);
    assert Numeral(112) + "." + Numeral(5) + "px" == s;
  }
}

=== FILE: layout.dfy ===
/**
 The geometric decisions of a drag: whether the pointer is on a header
 cell's drag handle, and how the enclosing table is resized when a column
 shrinks inside a scrolling table. DOM measurements are parameters.
 */
module Layout {

  /** Half the width of the drag band around a header cell's right edge. */
  const DragMargin: int := 10

  function Abs(x: int): nat {
    if x < 0 then -x else x
  }

  /**
   `_fnIsInDragArea`: the cell's right edge is its left offset plus its
   outer width; the pointer must be strictly within the margin of it.
   */
  function IsInDragArea(left: int, outerWidth: int, x: int): (r: bool)
    ensures r <==> Abs(x - (left + outerWidth)) < DragMargin
  {
    var rightSide := left + outerWidth;
    rightSide + DragMargin > x && rightSide - DragMargin < x
  }

  /**
   The measurements `_fnApplyWidth` takes of the table: whether the header
   sits in a scrolling wrapper, the table's width, and the wrapper's width.
   */
  datatype TableLayout = TableLayout(scrolling: bool, tableWidth: int, scrollWidth: int)

  /** Shrinking a column shrinks the table too while it is wider than the wrapper. */
  predicate ShouldChangeTableWidth(changed: int, t: TableLayout): (r: bool)
    ensures r ==> changed < 0 && t.scrolling
    ensures r ==> t.scrollWidth <= t.tableWidth + changed - 1 < t.tableWidth
  {
    changed < 0 && t.scrolling && t.tableWidth + changed > t.scrollWidth
  }

  /**
   The table's width after a frame: a shrink by `changed` takes one pixel
   more off the table, and never leaves it narrower than the wrapper.
   */
  function TableWidthAfter(changed: int, t: TableLayout): (w: int)
    ensures w <= t.tableWidth
    ensures w < t.tableWidth <==> ShouldChangeTableWidth(changed, t)
    ensures w < t.tableWidth ==> t.scrollWidth <= w && w == t.tableWidth + changed - 1
  {
    if ShouldChangeTableWidth(changed, t) then t.tableWidth + changed - 1 else t.tableWidth
  }

  /**
   After the resize, every body cell's width is pinned to its header cell's
   width when the column shrank inside a scrolling wrapper and the table,
   measured again after its own resize, is narrower than the wrapper by more
   than the shrink. The table's width is measured after the frame's table
   resize and is taken to be the width just set, so a frame that shrank the
   table has the shrink counted twice.
   */
  function PinsBodyWidths(changed: int, t: TableLayout): (r: bool)
    ensures r <==> (changed < 0 && t.scrolling &&
                    if ShouldChangeTableWidth(changed, t) then t.tableWidth + 2 * changed - 1 < t.scrollWidth
                    else t.tableWidth + changed < t.scrollWidth)
  {
    var tableWidthNow := TableWidthAfter(changed, t);
    changed < 0 && t.scrolling && tableWidthNow + changed < t.scrollWidth
  }

  /** Without a table resize, pinning happens exactly when the shrunk table would be narrower than the wrapper. */
  lemma PinsWhenTableCannotShrink(changed: int, t: TableLayout)
    requires changed < 0 && t.scrolling && t.tableWidth + changed < t.scrollWidth
    ensures !ShouldChangeTableWidth(changed, t) && TableWidthAfter(changed, t) == t.tableWidth
    ensures PinsBodyWidths(changed, t)
  {
  }

  /**
   One frame can both shrink the table and pin the body widths: a 60 px
   shrink takes a 1000 px table in a 900 px wrapper to 939 px, and
   939 - 60 is below 900.
   */
  lemma ShrinkAndPin()
    ensures var t := TableLayout(true, 1000, 900);
      && TableWidthAfter(-60, t) == 939
      && PinsBodyWidths(-60, t)
  {
  }
}

=== FILE: properties.dfy ===
/**
 Properties of the plugin over whole sequences of events: widths never
 drift, a drag clamps the width into the cell's bounds, reset undoes drags,
 a drag always has a column, and sorting comes back after a drag.
 */
module DragProperties {
  import opened Wrappers
  import Css
  import Bounds
  import Layout
  import Settings
  import opened Columns
  import opened ColResize

  /** Every event is a pointer-move. */
  predicate AllMoves(events: seq<Event>) {
    forall i :: 0 <= i < |events| ==> events[i].PointerMove?
  }

  /** Every event is a pointer or timer event; none is a call of the public operations. */
  predicate PointerOnly(events: seq<Event>) {
    forall i :: 0 <= i < |events| ==> !(events[i].Enable? || events[i].Disable? || events[i].Reset?)
  }

  lemma {:induction false} RunAppend(policy: Policy, resizable: Column -> bool, s: Session, events: seq<Event>, e: Event)
    ensures Run(policy, resizable, s, events + [e]) == Step(policy, resizable, Run(policy, resizable, s, events), e).next
    decreases |events|
  {
    if events != [] {
      assert (events + [e])[1..] == events[1..] + [e];
      RunAppend(policy, resizable, Step(policy, resizable, s, events[0]).next, events[1..], e);
    } else {
      assert events + [e] == [e];
    }
  }

  lemma {:induction false} RunConcat(policy: Policy, resizable: Column -> bool, s: Session, a: seq<Event>, b: seq<Event>)
    ensures Run(policy, resizable, s, a + b) == Run(policy, resizable, Run(policy, resizable, s, a), b)
    decreases |a|
  {
    if a == [] {
      assert a + b == b;
    } else {
      assert (a + b)[0] == a[0] && (a + b)[1..] == a[1..] + b;
      RunConcat(policy, resizable, Step(policy, resizable, s, a[0]).next, a[1..], b);
    }
  }

  // ---------------------------------------------------------------------------
  // No drift
  // ---------------------------------------------------------------------------

  /** One pointer-move during a drag, in terms of the drag state alone. */
  lemma MoveStep(policy: Policy, resizable: Column -> bool, s: Session, e: Event)
    requires s.enabled && Dragging(s) && e.PointerMove?
    ensures var t := Step(policy, resizable, s, e); var st := s.state; var c := st.column.value;
      var k := Bounds.BoundCheck(e.x - st.startX, st.originalWidth, st.minWidth, st.maxWidth, st.latches);
      && t.next == s.(state := t.next.state, columns := s.columns[c := s.columns[c].(sWidth := Text(Css.PxText(AppliedWidth(st, s.hasBoundCheck, e.x))))])
      && t.next.state == st.(latches := t.next.state.latches)
      && (s.hasBoundCheck ==> t.next.state.latches == k.latches)
      && (FlashMinBound(c) in t.effects <==> s.hasBoundCheck && k.flashMin)
      && (FlashMaxBound(c) in t.effects <==> s.hasBoundCheck && k.flashMax)
  {
  }

  /** During a drag, pointer-moves change nothing but the dragged column's width and the latches. */
  lemma {:induction false} MovesKeepDrag(policy: Policy, resizable: Column -> bool, s: Session, events: seq<Event>)
    requires s.enabled && Dragging(s)
    requires AllMoves(events)
    ensures var r := Run(policy, resizable, s, events); var c := s.state.column.value;
      && r == s.(state := r.state, columns := r.columns)
      && r.state == s.state.(latches := r.state.latches)
      && |r.columns| == |s.columns|
      && (forall i :: 0 <= i < |s.columns| && i != c ==> r.columns[i] == s.columns[i])
      && r.columns[c] == s.columns[c].(sWidth := r.columns[c].sWidth)
    decreases |events|
  {
    if events != [] {
      MoveStep(policy, resizable, s, events[0]);
      MovesKeepDrag(policy, resizable, Step(policy, resizable, s, events[0]).next, events[1..]);
    }
  }

  /**
   During a drag, after any non-empty sequence of pointer-moves the dragged
   column's width is computed from the last pointer position and the values
   captured at pointer-down alone: earlier frames leave no trace in it.
   */
  lemma {:induction false} MovesDoNotDrift(policy: Policy, resizable: Column -> bool, s: Session, events: seq<Event>)
    requires s.enabled && Dragging(s)
    requires AllMoves(events) && |events| > 0
    ensures var r := Run(policy, resizable, s, events); var c := s.state.column.value;
      && |r.columns| == |s.columns|
      && r.columns[c].sWidth == Text(Css.PxText(AppliedWidth(s.state, s.hasBoundCheck, events[|events| - 1].x)))
    decreases |events|
  {
    MoveStep(policy, resizable, s, events[0]);
    var s1 := Step(policy, resizable, s, events[0]).next;
    if |events| > 1 {
      MovesDoNotDrift(policy, resizable, s1, events[1..]);
      var last := events[|events| - 1].x;
      assert events[1..][|events[1..]| - 1].x == last;
      assert AppliedWidth(s1.state, s1.hasBoundCheck, last) == AppliedWidth(s.state, s.hasBoundCheck, last);
    } else {
      assert Run(policy, resizable, s1, events[1..]) == s1;
    }
  }

  /**
   A whole drag: pointer-down in the band of column `col` at x0, then
   pointer-moves ending at x. With the bound check on and ordered bounds, the
   column's width is the cell's width plus the total pointer travel,
   clamped to its bounds; with it off, it is not clamped at all.
   */
  lemma DragWidthIsClamped(policy: Policy, resizable: Column -> bool, s: Session,
                           col: nat, cell: HeaderCell, x0: int, moves: seq<Event>)
    requires StartsDrag(s, col, cell, x0)
    requires |moves| > 0 && AllMoves(moves)
    ensures var r := Run(policy, resizable, s, [PointerDown(col, cell, x0)] + moves);
      var min := ReadBound(policy, cell.minWidthCss);
      var max := ReadBound(policy, cell.maxWidthCss);
      var wish := cell.outerWidth + (moves[|moves| - 1].x - x0);
      && |r.columns| == |s.columns|
      && (s.hasBoundCheck && Bounds.Ordered(min, max) ==>
            r.columns[col].sWidth == Text(Css.PxText(Bounds.Clamp(wish, min, max))))
      && (!s.hasBoundCheck ==> r.columns[col].sWidth == Text(Css.PxText(wish)))
  {
    var down := PointerDown(col, cell, x0);
    var s1 := Step(policy, resizable, s, down).next;
    DownCaptures(policy, resizable, s, col, cell, x0);
    RunConcat(policy, resizable, s, [down], moves);
    assert Run(policy, resizable, s, [down]) == s1 by {
      assert [down][1..] == [];
    }
    MovesDoNotDrift(policy, resizable, s1, moves);
    AppliedIsClamped(s1.state, s.hasBoundCheck, moves[|moves| - 1].x);
  }

  /**
   With whole-pixel bounds (or "none"), as the plugin itself writes them,
   the width reading of the source and the corrected one agree, so a drag
   clamps the width to those bounds under either policy.
   */
  lemma WholePixelDragIsClamped(policy: Policy, resizable: Column -> bool, s: Session,
                                col: nat, cell: HeaderCell, x0: int, moves: seq<Event>, min: nat, max: nat)
    requires StartsDrag(s, col, cell, x0) && s.hasBoundCheck
    requires |moves| > 0 && AllMoves(moves)
    requires cell.minWidthCss == Css.Numeral(min) + "px" && cell.maxWidthCss in {"none", Css.Numeral(max) + "px"}
    requires cell.maxWidthCss != "none" ==> min <= max
    ensures var r := Run(policy, resizable, s, [PointerDown(col, cell, x0)] + moves);
      var wish := cell.outerWidth + (moves[|moves| - 1].x - x0);
      var maxBound := if cell.maxWidthCss == "none" then Some(Css.Unbounded) else Some(max);
      |r.columns| == |s.columns| && r.columns[col].sWidth == Text(Css.PxText(Bounds.Clamp(wish, Some(min), maxBound)))
  {
    assert Css.Numeral(min) + "px" == Css.PxText(min) && Css.Numeral(max) + "px" == Css.PxText(max);
    Css.PxTextRoundTrip(min);
    Css.PxTextRoundTrip(max);
    DragWidthIsClamped(policy, resizable, s, col, cell, x0, moves);
  }

  /**
   A fractional computed minimum in a whole session: a 120 px cell with
   `min-width: 112.5px`, dragged 10 px narrower. The source reads the
   minimum as 5 and writes 110px; the corrected reading clamps at 112px.
   */
  lemma FractionalMinInSession(resizable: Column -> bool, s: Session, col: nat)
    requires StartsDrag(s, col, HeaderCell(0, 120, "112.5px", "none"), 120) && s.hasBoundCheck
    ensures var cell := HeaderCell(0, 120, "112.5px", "none");
      var events := [PointerDown(col, cell, 120)] + [PointerMove(110, Layout.TableLayout(false, 0, 0))];
      var asWritten := Run(AsWritten, resizable, s, events);
      var guarded := Run(Guarded, resizable, s, events);
      && |asWritten.columns| == |guarded.columns| == |s.columns|
      && asWritten.columns[col].sWidth == Text(Css.PxText(110))
      && guarded.columns[col].sWidth == Text(Css.PxText(112))
  {
    var cell := HeaderCell(0, 120, "112.5px", "none");
    var moves := [PointerMove(110, Layout.TableLayout(false, 0, 0))];
    FractionalBoundsRead();
    DragWidthIsClamped(AsWritten, resizable, s, col, cell, 120, moves);
    DragWidthIsClamped(Guarded, resizable, s, col, cell, 120, moves);
  }

  /** How each policy reads the bounds of that cell, and where they clamp a 110 px wish. */
  lemma FractionalBoundsRead()
    ensures ReadBound(AsWritten, "112.5px") == Some(5) && ReadBound(Guarded, "112.5px") == Some(112)
    ensures ReadBound(AsWritten, "none") == ReadBound(Guarded, "none") == Some(Css.Unbounded)
    ensures Bounds.Clamp(110, Some(5), Some(Css.Unbounded)) == 110
    ensures Bounds.Clamp(110, Some(112), Some(Css.Unbounded)) == 112
  {
    Css.FractionalMisread();
  }

  /** Pointer-down in the band captures the cell's width, the pointer and the cell's parsed bounds. */
  lemma DownCaptures(policy: Policy, resizable: Column -> bool, s: Session, col: nat, cell: HeaderCell, x0: int)
    requires StartsDrag(s, col, cell, x0)
    ensures var s1 := Step(policy, resizable, s, PointerDown(col, cell, x0)).next;
      && s1.enabled && Dragging(s1) && s1.hasBoundCheck == s.hasBoundCheck && |s1.columns| == |s.columns|
      && s1.state.column == Some(col) && s1.state.startX == x0 && s1.state.originalWidth == cell.outerWidth
      && s1.state.minWidth == ReadBound(policy, cell.minWidthCss) && s1.state.maxWidth == ReadBound(policy, cell.maxWidthCss)
  {
  }

  /** The width a frame applies is the wish width clamped to the bounds, or the wish width itself without the bound check. */
  lemma AppliedIsClamped(st: DragState, hasBoundCheck: bool, x: int)
    ensures var wish := st.originalWidth + (x - st.startX);
      && (hasBoundCheck && Bounds.Ordered(st.minWidth, st.maxWidth) ==>
            AppliedWidth(st, hasBoundCheck, x) == Bounds.Clamp(wish, st.minWidth, st.maxWidth))
      && (!hasBoundCheck ==> AppliedWidth(st, hasBoundCheck, x) == wish)
  {
    var wish := st.originalWidth + (x - st.startX);
    if hasBoundCheck && Bounds.Ordered(st.minWidth, st.maxWidth) {
      if Bounds.BelowMin(wish, st.minWidth) {
      } else if Bounds.AboveMax(wish, st.maxWidth) {
      } else {
        assert Bounds.Within(wish, st.minWidth, st.maxWidth);
      }
    }
  }

  // ---------------------------------------------------------------------------
  // Bound classes
  // ---------------------------------------------------------------------------

  /** The proposed change of width of each pointer-move, measured from the drag's start. */
  function Deltas(events: seq<Event>, startX: int): (r: seq<int>)
    requires AllMoves(events)
    ensures |r| == |events| && forall i :: 0 <= i < |events| ==> r[i] == events[i].x - startX
  {
    seq(|events|, i requires 0 <= i < |events| => events[i].x - startX)
  }

  lemma ConsIndex<T>(x: T, xs: seq<T>, k: nat)
    requires 0 < k <= |xs|
    ensures ([x] + xs)[k] == xs[k - 1]
  {
  }

  lemma TraceCons(policy: Policy, resizable: Column -> bool, s: Session, events: seq<Event>)
    requires |events| > 0
    ensures var t := Step(policy, resizable, s, events[0]);
      Trace(policy, resizable, s, events) == [t] + Trace(policy, resizable, t.next, events[1..])
  {
  }

  lemma FramesCons(originalWidth: int, min: Bounds.Bound, max: Bounds.Bound, latches: Bounds.Latches, deltas: seq<int>)
    requires |deltas| > 0
    ensures var c := Bounds.BoundCheck(deltas[0], originalWidth, min, max, latches);
      Bounds.Frames(originalWidth, min, max, latches, deltas) == [c] + Bounds.Frames(originalWidth, min, max, c.latches, deltas[1..])
  {
  }

  lemma DeltasTail(events: seq<Event>, startX: int)
    requires AllMoves(events) && |events| > 0
    ensures Deltas(events, startX)[0] == events[0].x - startX
    ensures Deltas(events, startX)[1..] == Deltas(events[1..], startX)
  {
  }

  /** One pointer-move during a drag with the bound check on, as far as the bound classes and the latches go. */
  lemma MoveFlashes(policy: Policy, resizable: Column -> bool, s: Session, e: Event)
    requires s.enabled && Dragging(s) && s.hasBoundCheck && e.PointerMove?
    ensures var t := Step(policy, resizable, s, e); var st := s.state; var c := st.column.value;
      var k := Bounds.BoundCheck(e.x - st.startX, st.originalWidth, st.minWidth, st.maxWidth, st.latches);
      && t.next.enabled && t.next.hasBoundCheck && |t.next.columns| == |s.columns|
      && t.next.state == st.(latches := k.latches)
      && (FlashMinBound(c) in t.effects <==> k.flashMin)
      && (FlashMaxBound(c) in t.effects <==> k.flashMax)
  {
    MoveStep(policy, resizable, s, e);
  }

  /** The k-th pointer-move of a drag adds a bound class exactly when the k-th frame of the bound check says so. */
  lemma {:induction false} MovesFlashAsFrames(policy: Policy, resizable: Column -> bool, s: Session, events: seq<Event>, k: nat)
    requires s.enabled && Dragging(s) && s.hasBoundCheck
    requires AllMoves(events) && k < |events|
    ensures var st := s.state; var c := st.column.value;
      var f := Bounds.Frames(st.originalWidth, st.minWidth, st.maxWidth, st.latches, Deltas(events, st.startX))[k];
      var t := Trace(policy, resizable, s, events)[k];
      && (FlashMinBound(c) in t.effects <==> f.flashMin)
      && (FlashMaxBound(c) in t.effects <==> f.flashMax)
    decreases k
  {
    var st := s.state;
    var deltas := Deltas(events, st.startX);
    var t0 := Step(policy, resizable, s, events[0]);
    var first := Bounds.BoundCheck(deltas[0], st.originalWidth, st.minWidth, st.maxWidth, st.latches);
    TraceCons(policy, resizable, s, events);
    FramesCons(st.originalWidth, st.minWidth, st.maxWidth, st.latches, deltas);
    DeltasTail(events, st.startX);
    MoveFlashes(policy, resizable, s, events[0]);
    if k > 0 {
      var s1 := t0.next;
      MovesFlashAsFrames(policy, resizable, s1, events[1..], k - 1);
      ConsIndex(t0, Trace(policy, resizable, s1, events[1..]), k);
      ConsIndex(first, Bounds.Frames(st.originalWidth, st.minWidth, st.maxWidth, first.latches, deltas[1..]), k);
    }
  }

  /** The width the pointer at x asks for: the width at pointer-down plus the pointer travel. */
  function WishWidth(st: DragState, x: int): int {
    st.originalWidth + (x - st.startX)
  }

  /**
   From pointer-down on, a pointer-move adds the min-bound class iff its
   wish width is below the minimum and the move before it (if any) was
   not; likewise for the maximum. So each class is added once per run of
   consecutive out-of-bounds moves.
   */
  lemma BoundClassOncePerRun(policy: Policy, resizable: Column -> bool, s: Session, events: seq<Event>, k: nat)
    requires s.enabled && Dragging(s) && s.hasBoundCheck && s.state.latches == Bounds.Armed
    requires AllMoves(events) && k < |events|
    ensures var st := s.state; var c := st.column.value;
      var t := Trace(policy, resizable, s, events)[k];
      && (FlashMinBound(c) in t.effects <==>
            Bounds.BelowMin(WishWidth(st, events[k].x), st.minWidth) &&
            (k == 0 || !Bounds.BelowMin(WishWidth(st, events[k - 1].x), st.minWidth)))
      && (FlashMaxBound(c) in t.effects <==>
            Bounds.AboveMax(WishWidth(st, events[k].x), st.maxWidth) &&
            (k == 0 || !Bounds.AboveMax(WishWidth(st, events[k - 1].x), st.maxWidth)))
  {
    var st := s.state;
    MovesFlashAsFrames(policy, resizable, s, events, k);
    Bounds.LatchFiresOncePerRun(st.originalWidth, st.minWidth, st.maxWidth, st.latches, Deltas(events, st.startX), k);
  }

  // ---------------------------------------------------------------------------
  // Well-formedness
  // ---------------------------------------------------------------------------

  /** A drag in progress always belongs to a column of the table. */
  predicate WellFormed(s: Session) {
    s.state.isDragging ==> Dragging(s)
  }

  lemma StepKeepsWellFormed(policy: Policy, resizable: Column -> bool, s: Session, e: Event)
    requires WellFormed(s)
    ensures var r := Step(policy, resizable, s, e).next;
      WellFormed(r) && |r.columns| == |s.columns|
  {
  }

  lemma {:induction false} RunKeepsWellFormed(policy: Policy, resizable: Column -> bool, s: Session, events: seq<Event>)
    requires WellFormed(s)
    ensures var r := Run(policy, resizable, s, events);
      WellFormed(r) && |r.columns| == |s.columns|
    decreases |events|
  {
    if events != [] {
      StepKeepsWellFormed(policy, resizable, s, events[0]);
      RunKeepsWellFormed(policy, resizable, Step(policy, resizable, s, events[0]).next, events[1..]);
    }
  }

  // ---------------------------------------------------------------------------
  // Reset
  // ---------------------------------------------------------------------------

  /** Pointer and timer events never touch the saved widths. */
  lemma {:induction false} PointerEventsKeepBaseline(policy: Policy, resizable: Column -> bool, s: Session, events: seq<Event>)
    requires PointerOnly(events)
    ensures var r := Run(policy, resizable, s, events);
      |r.columns| == |s.columns| &&
      forall i :: 0 <= i < |s.columns| ==> r.columns[i].resizableWidth == s.columns[i].resizableWidth
    decreases |events|
  {
    if events != [] {
      var s1 := Step(policy, resizable, s, events[0]).next;
      assert |s1.columns| == |s.columns|;
      assert forall i :: 0 <= i < |s.columns| ==> s1.columns[i].resizableWidth == s.columns[i].resizableWidth;
      PointerEventsKeepBaseline(policy, resizable, s1, events[1..]);
    }
  }

  /**
   Reset after any drags brings every resizable column back to the width it
   had when the plugin was constructed; a column that is not resizable gets
   whatever `_sResizableWidth` it held before (absent if never saved).
   */
  lemma ResetUndoesDrags(policy: Policy, resizable: Column -> bool, s: Session, events: seq<Event>)
    requires PointerOnly(events)
    ensures var r := Run(policy, resizable, Construct(s, resizable), events + [Reset]);
      |r.columns| == |s.columns| &&
      forall i :: 0 <= i < |s.columns| ==>
        r.columns[i].sWidth == r.columns[i].width ==
        (if resizable(s.columns[i]) then s.columns[i].sWidth else s.columns[i].resizableWidth)
  {
    var s0 := Construct(s, resizable);
    RunAppend(policy, resizable, s0, events, Reset);
    PointerEventsKeepBaseline(policy, resizable, s0, events);
  }

  /**
   Disabling and enabling again re-runs construction, which saves every
   resizable column's current width over the one saved first: a later reset
   goes back to the width at re-enable time, not to the first one.
   */
  lemma ReenableResavesWidths(policy: Policy, resizable: Column -> bool, s: Session)
    requires s.enabled
    ensures var r := Run(policy, resizable, s, [Disable, Enable, Reset]);
      |r.columns| == |s.columns| &&
      forall i :: 0 <= i < |s.columns| && resizable(s.columns[i].(dragHandle := false)) ==>
        r.columns[i].resizableWidth == r.columns[i].sWidth == s.columns[i].sWidth
  {
    var s1 := Step(policy, resizable, s, Disable).next;
    var s2 := Step(policy, resizable, s1, Enable).next;
    var s3 := Step(policy, resizable, s2, Reset).next;
    assert forall i :: 0 <= i < |s.columns| ==> s1.columns[i] == s.columns[i].(dragHandle := false);
    assert Run(policy, resizable, s2, [Reset]) == s3;
    assert Run(policy, resizable, s1, [Enable, Reset]) == s3 by {
      assert [Enable, Reset][1..] == [Reset];
    }
    assert [Disable, Enable, Reset][1..] == [Enable, Reset];
  }

  /**
   Under the default `isResizable` option, construction gives the drag
   handle exactly to the columns whose own option is undefined or truthy;
   a column whose option is false, null, 0 or "" keeps its saved width.
   */
  lemma DefaultOptionDecidesHandles(s: Session)
    ensures var r := Construct(s, DefaultIsResizable);
      forall i :: 0 <= i < |s.columns| ==>
        && (r.columns[i].dragHandle <==> s.columns[i].isResizable.Undefined? || Settings.Truthy(s.columns[i].isResizable))
        && (!r.columns[i].dragHandle ==> r.columns[i].resizableWidth == s.columns[i].resizableWidth)
  {
  }

  // ---------------------------------------------------------------------------
  // Sortability
  // ---------------------------------------------------------------------------

  /** No drag is active and no sortability restore is pending. */
  predicate Quiescent(s: Session) {
    !s.state.isDragging && s.pendingRestores == 0
  }

  function Sortables(cols: seq<Column>): (r: seq<bool>)
    ensures |r| == |cols| && forall i :: 0 <= i < |cols| ==> r[i] == cols[i].sortable
  {
    seq(|cols|, i requires 0 <= i < |cols| => cols[i].sortable)
  }

  /**
   The flags `orig` are safe: visible on the columns while quiescent, and
   saved in the holders otherwise.
   */
  predicate SortInvariant(s: Session, orig: seq<bool>) {
    && |s.columns| == |orig|
    && (Quiescent(s) ==> forall i :: 0 <= i < |orig| ==> s.columns[i].sortable == orig[i])
    && (!Quiescent(s) ==> forall i :: 0 <= i < |orig| ==> s.columns[i].sortableHolder == Some(orig[i]))
  }

  lemma GuardedStepKeepsSortInvariant(resizable: Column -> bool, s: Session, e: Event, orig: seq<bool>)
    requires SortInvariant(s, orig)
    ensures SortInvariant(Step(Guarded, resizable, s, e).next, orig)
  {
    var r := Step(Guarded, resizable, s, e).next;
    match e
    case PointerDown(col, cell, x) =>
      if StartsDrag(s, col, cell, x) && !Quiescent(s) {
        assert forall i :: 0 <= i < |orig| ==> r.columns[i].sortableHolder == s.columns[i].sortableHolder;
      }
    case PointerMove(x, table) =>
      if s.enabled && Dragging(s) {
        assert forall i :: 0 <= i < |orig| ==> r.columns[i].sortableHolder == s.columns[i].sortableHolder;
        assert forall i :: 0 <= i < |orig| ==> r.columns[i].sortable == s.columns[i].sortable;
      }
    case _ =>
  }

  lemma {:induction false} GuardedRunKeepsSortInvariant(resizable: Column -> bool, s: Session, events: seq<Event>, orig: seq<bool>)
    requires SortInvariant(s, orig)
    ensures SortInvariant(Run(Guarded, resizable, s, events), orig)
    decreases |events|
  {
    if events != [] {
      GuardedStepKeepsSortInvariant(resizable, s, events[0], orig);
      GuardedRunKeepsSortInvariant(resizable, Step(Guarded, resizable, s, events[0]).next, events[1..], orig);
    }
  }

  /**
   Under the guarded policy, whatever events arrive and however drags and
   pending restores interleave, once everything has settled every column
   is exactly as sortable as it was before.
   */
  lemma GuardedDragsKeepSortability(resizable: Column -> bool, s: Session, events: seq<Event>)
    requires Quiescent(s)
    ensures var r := Run(Guarded, resizable, s, events);
      Quiescent(r) ==> Sortables(r.columns) == Sortables(s.columns)
  {
    GuardedRunKeepsSortInvariant(resizable, s, events, Sortables(s.columns));
  }

  /** After a drag that started from a quiescent session, pointer-up and the restore it schedules settle it again, with every saved flag back. */
  lemma UpThenRestore(policy: Policy, resizable: Column -> bool, s: Session)
    requires s.enabled && s.state.isDragging && s.pendingRestores == 0
    ensures var r := Run(policy, resizable, s, [PointerUp, SortRestoreTimer]);
      && Quiescent(r) && |r.columns| == |s.columns|
      && forall i :: 0 <= i < |s.columns| ==> r.columns[i].sortable == (s.columns[i].sortableHolder == Some(true))
  {
    var s1 := Step(policy, resizable, s, PointerUp).next;
    assert s1.columns == s.columns && !s1.state.isDragging && s1.pendingRestores == 1;
    var s2 := Step(policy, resizable, s1, SortRestoreTimer).next;
    assert [PointerUp, SortRestoreTimer][1..] == [SortRestoreTimer];
    assert Run(policy, resizable, s1, [SortRestoreTimer]) == s2;
  }

  /** Pointer-down in the band of a quiescent session starts a drag that has saved every column's sortability. */
  lemma DownSavesSortables(policy: Policy, resizable: Column -> bool, s: Session, col: nat, cell: HeaderCell, x0: int)
    requires Quiescent(s) && StartsDrag(s, col, cell, x0)
    ensures var s1 := Step(policy, resizable, s, PointerDown(col, cell, x0)).next;
      && s1.enabled && Dragging(s1) && s1.pendingRestores == 0 && |s1.columns| == |s.columns|
      && forall i :: 0 <= i < |s.columns| ==> s1.columns[i].sortableHolder == Some(s.columns[i].sortable)
  {
  }

  /**
   Under either policy, one drag on its own (pointer-down in the band,
   moves, pointer-up, then the scheduled restore) leaves every column as
   sortable as it was.
   */
  lemma SingleDragRestoresSortability(policy: Policy, resizable: Column -> bool, s: Session,
                                      col: nat, cell: HeaderCell, x0: int, moves: seq<Event>)
    requires Quiescent(s) && StartsDrag(s, col, cell, x0)
    requires AllMoves(moves)
    ensures var r := Run(policy, resizable, s, [PointerDown(col, cell, x0)] + moves + [PointerUp, SortRestoreTimer]);
      Quiescent(r) && Sortables(r.columns) == Sortables(s.columns)
  {
    var down := PointerDown(col, cell, x0);
    var s1 := Step(policy, resizable, s, down).next;
    DownSavesSortables(policy, resizable, s, col, cell, x0);
    var s2 := Run(policy, resizable, s1, moves);
    MovesKeepDrag(policy, resizable, s1, moves);
    UpThenRestore(policy, resizable, s2);
    var tail := [PointerUp, SortRestoreTimer];
    RunConcat(policy, resizable, s1, moves, tail);
    RunConcat(policy, resizable, s, [down], moves + tail);
    assert [down] + moves + tail == [down] + (moves + tail);
    assert Run(policy, resizable, s, [down]) == s1 by {
      assert [down][1..] == [];
    }
  }

  /** Two drags, the second starting before the restore scheduled by the first has run. */
  function QuickRedrag(cell: HeaderCell, x: int): seq<Event> {
    [PointerDown(0, cell, x), PointerUp, PointerDown(0, cell, x), SortRestoreTimer, PointerUp, SortRestoreTimer]
  }

  /**
   The source's bookkeeping loses sortability when a second drag starts
   within the restore delay of the first: the second pointer-down saves the
   already-suspended flag (false) over the saved one, and both restores then
   put back false. The guarded policy ends with the column sortable again.
   */
  lemma QuickRedragLosesSortability()
    ensures var col := Column(0, Text("100px"), Text("100px"), Absent, true, None, true, Settings.Undefined, true);
      var s := Session(true, true, InitialState, [col], 0);
      var cell := HeaderCell(0, 100, "0px", "none");
      var asWritten := Run(AsWritten, DefaultIsResizable, s, QuickRedrag(cell, 100));
      var guarded := Run(Guarded, DefaultIsResizable, s, QuickRedrag(cell, 100));
      && Quiescent(asWritten) && !asWritten.columns[0].sortable
      && Quiescent(guarded) && guarded.columns[0].sortable
  {
    QuickRedragAsWritten();
    QuickRedragGuarded();
  }

  /** The source's bookkeeping on the quick redrag. */
  lemma QuickRedragAsWritten()
    ensures var col := Column(0, Text("100px"), Text("100px"), Absent, true, None, true, Settings.Undefined, true);
      var s := Session(true, true, InitialState, [col], 0);
      var r := Run(AsWritten, DefaultIsResizable, s, QuickRedrag(HeaderCell(0, 100, "0px", "none"), 100));
      Quiescent(r) && |r.columns| == 1 && !r.columns[0].sortable
  {
    var col := Column(0, Text("100px"), Text("100px"), Absent, true, None, true, Settings.Undefined, true);
    var s := Session(true, true, InitialState, [col], 0);
    var cell := HeaderCell(0, 100, "0px", "none");
    var events := QuickRedrag(cell, 100);
    assert StartsDrag(s, 0, cell, 100);
    var a1 := Step(AsWritten, DefaultIsResizable, s, events[0]).next;
    assert a1.columns[0].sortableHolder == Some(true) && !a1.columns[0].sortable;
    var a2 := Step(AsWritten, DefaultIsResizable, a1, events[1]).next;
    assert StartsDrag(a2, 0, cell, 100) && a2.pendingRestores == 1;
    var a3 := Step(AsWritten, DefaultIsResizable, a2, events[2]).next;
    assert a3.columns[0].sortableHolder == Some(false);
    var a4 := Step(AsWritten, DefaultIsResizable, a3, events[3]).next;
    var a5 := Step(AsWritten, DefaultIsResizable, a4, events[4]).next;
    var a6 := Step(AsWritten, DefaultIsResizable, a5, events[5]).next;
    assert Quiescent(a6) && !a6.columns[0].sortable;
    assert Run(AsWritten, DefaultIsResizable, a5, events[5..]) == a6;
    assert Run(AsWritten, DefaultIsResizable, a4, events[4..]) == a6;
    assert Run(AsWritten, DefaultIsResizable, a3, events[3..]) == a6;
    assert Run(AsWritten, DefaultIsResizable, a2, events[2..]) == a6;
    assert Run(AsWritten, DefaultIsResizable, a1, events[1..]) == a6;
  }

  /** The guarded bookkeeping on the same events. */
  lemma QuickRedragGuarded()
    ensures var col := Column(0, Text("100px"), Text("100px"), Absent, true, None, true, Settings.Undefined, true);
      var s := Session(true, true, InitialState, [col], 0);
      var r := Run(Guarded, DefaultIsResizable, s, QuickRedrag(HeaderCell(0, 100, "0px", "none"), 100));
      Quiescent(r) && |r.columns| == 1 && r.columns[0].sortable
  {
    var col := Column(0, Text("100px"), Text("100px"), Absent, true, None, true, Settings.Undefined, true);
    var s := Session(true, true, InitialState, [col], 0);
    var cell := HeaderCell(0, 100, "0px", "none");
    var events := QuickRedrag(cell, 100);
    assert StartsDrag(s, 0, cell, 100);
    GuardedDragsKeepSortability(DefaultIsResizable, s, events);
    var g1 := Step(Guarded, DefaultIsResizable, s, events[0]).next;
    var g2 := Step(Guarded, DefaultIsResizable, g1, events[1]).next;
    var g3 := Step(Guarded, DefaultIsResizable, g2, events[2]).next;
    var g4 := Step(Guarded, DefaultIsResizable, g3, events[3]).next;
    var g5 := Step(Guarded, DefaultIsResizable, g4, events[4]).next;
    var g6 := Step(Guarded, DefaultIsResizable, g5, events[5]).next;
    assert Quiescent(g6);
    assert Run(Guarded, DefaultIsResizable, g5, events[5..]) == g6;
    assert Run(Guarded, DefaultIsResizable, g4, events[4..]) == g6;
    assert Run(Guarded, DefaultIsResizable, g3, events[3..]) == g6;
    assert Run(Guarded, DefaultIsResizable, g2, events[2..]) == g6;
    assert Run(Guarded, DefaultIsResizable, g1, events[1..]) == g6;
  }
}

=== FILE: settings.dfy ===
/**
 The plugin's options: JavaScript values, the deep merge of the user's
 options over the defaults (`settingsFallback`), and the defaults
 themselves.
 */
module Settings {
  import opened Wrappers
  import Css

  /**
   The JavaScript values options are made of. An array is an object whose
   keys are indices; a function is opaque and has no own enumerable keys.
   */
  datatype JsValue =
    | Undefined
    | Null
    | Bool(b: bool)
    | Num(n: int)
    | Str(s: string)
    | Fun(id: nat)
    | Obj(props: map<string, JsValue>)

  /** The error `hasOwnProperty` raises when called on null or undefined. */
  datatype TypeError = TypeError

  /** `typeof v === 'object'`, which holds of null as well. */
  predicate IsObjectType(v: JsValue) {
    v.Obj? || v.Null?
  }

  /** JavaScript truthiness. */
  predicate Truthy(v: JsValue) {
    match v
    case Undefined => false
    case Null => false
    case Bool(b) => b
    case Num(n) => n != 0
    case Str(s) => s != ""
    case Fun(_) => true
    case Obj(_) => true
  }

  /** The index keys of a string of length n: "0", "1", ... */
  function IndexKeys(n: nat): set<string> {
    set i | 0 <= i < n :: Css.Numeral(i)
  }

  lemma IndexKeyValue(k: string, n: nat)
    requires k in IndexKeys(n)
    ensures Css.AllDigits(k) && Css.DecimalValue(k) < n
  {
    var i :| 0 <= i < n && Css.Numeral(i) == k;
  }

  /** The own enumerable keys a `for ... in` loop visits. */
  function OwnKeys(v: JsValue): set<string> {
    match v
    case Obj(props) => props.Keys
    case Str(s) => IndexKeys(|s|)
    case _ => {}
  }

  /** The value of an own key; a string's index key holds its character. */
  function Get(v: JsValue, k: string): JsValue
    requires k in OwnKeys(v)
  {
    match v
    case Obj(props) => props[k]
    case Str(s) =>
      IndexKeyValue(k, |s|);
      Str([s[Css.DecimalValue(k)]])
  }

  /** No null anywhere in the value. */
  predicate NullFree(v: JsValue) {
    match v
    case Null => false
    case Obj(props) => forall k :: k in props ==> NullFree(props[k])
    case _ => true
  }

  /**
   `settingsFallback(user, defaults)`: for every own key of the defaults,
   the user's own value if it has one (merged recursively when its `typeof`
   is 'object'), else the default. Keys the defaults do not have are
   dropped. `hasOwnProperty` on a null user value throws.
   */
  function Fallback(user: JsValue, defaults: JsValue): (r: Result<JsValue, TypeError>)
    ensures r.Success? ==> r.value.Obj? && r.value.props.Keys == OwnKeys(defaults)
    ensures r.Success? && user.Obj? ==> forall k :: k in OwnKeys(defaults) && k !in user.props ==>
      r.value.props[k] == Get(defaults, k)
    ensures r.Success? && user.Obj? ==> forall k :: k in OwnKeys(defaults) && k in user.props && !IsObjectType(user.props[k]) ==>
      r.value.props[k] == user.props[k]
    ensures r.Success? && user.Obj? ==> forall k :: k in OwnKeys(defaults) && k in user.props && IsObjectType(user.props[k]) ==>
      Fallback(user.props[k], Get(defaults, k)) == Success(r.value.props[k])
    ensures (user.Null? || user.Undefined?) ==> (r.Failure? <==> OwnKeys(defaults) != {})
    decreases user, 1
  {
    var keys := OwnKeys(defaults);
    if exists k | k in keys :: Entry(user, defaults, k).Failure? then Failure(TypeError)
    else Success(Obj(map k | k in keys :: Entry(user, defaults, k).value))
  }

  /** One iteration of the loop in `settingsFallback`: the merged value of key k. */
  function Entry(user: JsValue, defaults: JsValue, k: string): Result<JsValue, TypeError>
    requires k in OwnKeys(defaults)
    decreases user, 0
  {
    match user
    case Undefined => Failure(TypeError)
    case Null => Failure(TypeError)
    case Obj(props) =>
      if k !in props then Success(Get(defaults, k))
      else if IsObjectType(props[k]) then Fallback(props[k], Get(defaults, k))
      else Success(props[k])
    case _ =>
      if k in OwnKeys(user) then Success(Get(user, k)) else Success(Get(defaults, k))
  }

  /** With no options of their own, the user gets exactly the defaults. */
  lemma EmptyUserGetsDefaults(props: map<string, JsValue>)
    ensures Fallback(Obj(map[]), Obj(props)) == Success(Obj(props))
  {
    var r := Fallback(Obj(map[]), Obj(props));
    assert forall k | k in props :: Entry(Obj(map[]), Obj(props), k) == Success(props[k]);
    assert r.value.props == props;
  }

  /** A user value without nulls never makes the merge throw. */
  lemma {:induction false} NullFreeNeverThrows(user: JsValue, defaults: JsValue)
    requires user.Obj? && NullFree(user)
    ensures Fallback(user, defaults).Success?
    decreases user
  {
    forall k | k in OwnKeys(defaults)
      ensures Entry(user, defaults, k).Success?
    {
      if k in user.props && IsObjectType(user.props[k]) {
        NullFreeNeverThrows(user.props[k], Get(defaults, k));
      }
    }
  }

  /** Merging null-free options over themselves gives them back unchanged. */
  lemma {:induction false} FallbackIdempotent(v: JsValue)
    requires v.Obj? && NullFree(v)
    ensures Fallback(v, v) == Success(v)
    decreases v
  {
    forall k | k in v.props
      ensures Entry(v, v, k) == Success(v.props[k])
    {
      if IsObjectType(v.props[k]) {
        FallbackIdempotent(v.props[k]);
      }
    }
    NullFreeNeverThrows(v, v);
    assert Fallback(v, v).value.props == v.props;
  }

  /**
   A null user option whose default has keys of its own (a non-empty
   string, or an object) makes the merge throw: `typeof null` is 'object',
   so the merge recurses into it.
   */
  lemma NullOverKeyedDefaultThrows(user: JsValue, defaults: JsValue, k: string)
    requires user.Obj? && k in user.props && user.props[k] == Null
    requires k in OwnKeys(defaults) && OwnKeys(Get(defaults, k)) != {}
    ensures Fallback(user, defaults).Failure?
  {
    assert Entry(user, defaults, k).Failure?;
  }

  // ---------------------------------------------------------------------------
  // The defaults
  // ---------------------------------------------------------------------------

  /** The default functions, opaque to the model. */
  const IsResizableFn := Fun(0)
  const OnResizeStartFn := Fun(1)
  const OnResizeFn := Fun(2)
  const OnResizeEndFn := Fun(3)

  /** `ColResize.defaults`. */
  const Defaults: JsValue := Obj(map[
    "isEnabled" := Bool(true),
    "hoverClass" := Str("dt-colresizable-hover"),
    "hasBoundCheck" := Bool(true),
    "minBoundClass" := Str("dt-colresizable-bound-min"),
    "maxBoundClass" := Str("dt-colresizable-bound-max"),
    "isResizable" := IsResizableFn,
    "onResizeStart" := OnResizeStartFn,
    "onResize" := OnResizeFn,
    "onResizeEnd" := OnResizeEndFn
  ])

  /** The defaults enable the plugin and its bound check, and merging over them never throws. */
  lemma DefaultsTurnEverythingOn()
    ensures Defaults.Obj? && NullFree(Defaults)
    ensures Truthy(Defaults.props["isEnabled"]) && Truthy(Defaults.props["hasBoundCheck"])
    ensures ResolveOptions(Undefined) == Success(Defaults)
  {
  }

  /** `opts || {}`: falsy options count as none. */
  function OrEmpty(user: JsValue): JsValue {
    if Truthy(user) then user else Obj(map[])
  }

  /** The plugin's options: the user's options merged over the defaults. */
  function ResolveOptions(user: JsValue): (r: Result<JsValue, TypeError>)
    ensures r.Success? ==> r.value.Obj? && r.value.props.Keys == Defaults.props.Keys
    ensures !Truthy(user) ==> r == Success(Defaults)
  {
    EmptyUserGetsDefaults(Defaults.props);
    Fallback(OrEmpty(user), Defaults)
  }
}

=== FILE: wrappers.dfy ===
/** The optional value and the success-or-error result used across the model. */
module Wrappers {

  /** A value that may be absent. */
  datatype Option<+T> = None | Some(value: T)

  /** Either a value or an error. */
  datatype Result<+T, +E> = Success(value: T) | Failure(error: E)
}
